=== FILE: README.md ===
# Chat assistant streaming core, modelled in Dafny

This project models the streaming chat path of a small website assistant, in two parts.

The server part is the `chat` edge function (`supabase/functions/chat/index.ts`). It checks that the provider key is set. It builds the system prompt: the base prompt, plus a knowledge-base context block when retrieval is configured and a user turn exists. It maps the provider's HTTP status onto the reply. It then re-frames the provider's server-sent events (SSE) into a normalised stream. That stream has two kinds of line: `data: {"choices":[{"delta":{"content":…}}]}` and `data: [DONE]`.

The client part is the chat widget (`src/components/Chatbot.tsx`). Its read loop buffers decoded text and cuts it at `\n`. It drops one trailing `\r` from each line, filters out comments, blank lines and non-`data:` lines, and stops the inner loop on `[DONE]`. On a parse failure it puts the line back into the buffer. Each non-empty delta is appended to the assistant text, and the whole text is republished as the transcript's tail message. After a turn in which the user's text contained a pricing keyword, the widget marks the last message with the contact form when that message is an assistant message.

Modules:
- `Text`: prefixes, `indexOf`, cutting lines at `\n`, JavaScript's `split("\n")` and `trim()`, ASCII lowering, substring search.
- `Transcript`: the message list, the tail update, the contact-form marker and the pricing heuristic.
- `Wire`: the normalised events, the exact `JSON.stringify` of the content object, and a reference decoder for it.
- `Transcoder`: the server's per-chunk transform.
- `ChatHandler`: the key check, the retrieval prompt and the status replies.
- `Consumer`: the client's buffer, drain and feed loops.
- `Pipeline`: the two halves composed.

`JSON.parse` is a function parameter on both sides. The client-side lemmas that need it to read back what the server wrote assume `Pipeline.DecodesContent`. `Pipeline.ReferenceParseDecodes` shows that some parser satisfies it.

A complete line whose payload does not parse is not skipped. The catch block puts it back at the head of the buffer and breaks out of the inner loop, after acting on the lines before it (`Consumer.DrainStopsAtFirstUnparsable`). Every later read cuts that same line first, fails on it again and breaks again, so no later line is ever reached (`Consumer.FirstUnparsableStarves`, `Consumer.FeedAllStuck`).

## Model

| member | source | states |
|---|---|---|
| `Text.IndexOf` | src/components/Chatbot.tsx:54 | The result is -1 exactly when the character does not occur. Otherwise it is the position of the first occurrence. |
| `Text.CutLine` | src/components/Chatbot.tsx:54-56 | None exactly when there is no `\n`. Otherwise the buffer is `line + "\n" + rest`, the line has no newline, and the rest is shorter. |
| `Text.CutLineAtIndexOf` | src/components/Chatbot.tsx:54-56 | Cutting a line agrees with the slices `slice(0, i)` and `slice(i + 1)` around the `indexOf("\n")` position. |
| `Text.Lines` | src/components/Chatbot.tsx:53-56 | Repeated cutting yields newline-free lines and a newline-free remainder. |
| `Text.LinesJoined` | src/components/Chatbot.tsx:53-56 | Inverse direction: the buffer equals the lines, each followed by `\n`, and then the remainder. |
| `Text.LinesOfJoined` | src/components/Chatbot.tsx:53-56 | Uniqueness: newline-free lines, joined with `\n` and followed by a newline-free rest, are cut back into exactly those lines and rest. |
| `Text.LinesAppend` | src/components/Chatbot.tsx:51-56 | Appending text to a buffer only extends its line list: the new lines are the old ones plus the lines of the old remainder followed by the new text. |
| `Text.CutLineAppend` | src/components/Chatbot.tsx:54-56 | Appending text after a buffer that holds a newline does not change the first line cut from it. |
| `Text.Split` | supabase/functions/chat/index.ts:211 | `split("\n")` gives at least one piece, and no piece holds a newline. |
| `Text.SplitJoined` | supabase/functions/chat/index.ts:211 | Joining the pieces of `split("\n")` with `\n` gives back the chunk. |
| `Text.Trim` | src/components/Chatbot.tsx:59-62 | No contract of its own: `Text.TrimStartShape`, `Text.TrimEndShape` and `Text.TrimMeaning` state what `trim()` returns. |
| `Text.TrimStartShape` | src/components/Chatbot.tsx:62 | Trimming the start removes a whitespace prefix and leaves text that is empty or starts with non-whitespace. |
| `Text.TrimEndShape` | src/components/Chatbot.tsx:62 | Trimming the end removes a whitespace suffix and leaves text that is empty or ends with non-whitespace. |
| `Text.TrimMeaning` | src/components/Chatbot.tsx:59 | `trim()` is empty exactly when the text is all ECMAScript whitespace. Otherwise both ends are non-whitespace, and text without whitespace at either end is kept whole. |
| `Text.TrimSnocWhitespace` | src/components/Chatbot.tsx:62 | Appending one whitespace character, such as a kept `\r`, does not change the trimmed text. |
| `Text.Lower` | src/components/Chatbot.tsx:89 | `toLowerCase` keeps the length. Each of `A`..`Z` becomes the matching letter of `a`..`z`, 32 code points higher, and every other character stays in place. |
| `Text.Contains` | src/components/Chatbot.tsx:90 | `includes` holds exactly when the keyword occurs at some offset. |
| `Transcript.UpsertAssistant` | src/components/Chatbot.tsx:70-78 | A trailing assistant message gets the new content and keeps its other fields. Any other list gets a new assistant message appended. Earlier messages are unchanged, and the result always ends with an assistant message holding the text. |
| `Transcript.UpsertOverrides` | src/components/Chatbot.tsx:70-78 | Two tail updates in a row equal the second alone, so only the latest accumulated text survives. |
| `Transcript.MarkContactForm` | src/components/Chatbot.tsx:111-119 | The length is kept. A trailing assistant message gets `showContactForm` set and nothing else changes. A list not ending in an assistant message is returned unchanged. |
| `Transcript.ContainsAny` | src/components/Chatbot.tsx:90 | `some(k => includes(k))` holds exactly when some keyword of the list occurs. |
| `Transcript.IsPriceQuery` | src/components/Chatbot.tsx:88-91 | Holds exactly when one of the nine `PRICE_KEYWORDS` occurs in the lowered text. |
| `Transcript.AfterTurn` | src/components/Chatbot.tsx:104-120 | After a turn, the last assistant message is marked exactly when the user's text was a pricing query. Otherwise the list is unchanged, and earlier messages are never touched. |
| `Transcript.AccurateMatchesRate` | src/components/Chatbot.tsx:13 | Substring matching flags "accurate" as a pricing query, through the keyword "rate". |
| `Transcript.CostQuestionIsPricing` | src/components/Chatbot.tsx:88-91 | A mixed-case question that mentions cost is a pricing query. |
| `Transcript.PowerBiIsNotPricing` | src/components/Chatbot.tsx:88-91 | A question with none of the keywords in it, "Tell me about Power BI", is not a pricing query. |
| `Wire.Render` | supabase/functions/chat/index.ts:216-228 | A content event renders as `data: ` + the stringified content object + a blank line. `[DONE]` renders as `data: [DONE]` + a blank line. |
| `Wire.Escape` | supabase/functions/chat/index.ts:223-226 | The escaped body of a JSON string is never shorter than the text and holds no raw control character. Its inverse is `Wire.UnescapeEscape`. |
| `Wire.ContentJson` | supabase/functions/chat/index.ts:223-226 | The stringified content object holds no newline, so it stays on one `data:` line. `Wire.DecodeContentJsonRoundTrip` reads the text back out of it. |
| `Wire.ContentJsonTrimmed` | supabase/functions/chat/index.ts:223-226 | The stringified content object has no whitespace at its ends, so the client's `trim()` leaves it unchanged. |
| `Wire.WireFraming` | supabase/functions/chat/index.ts:217-228 | Cutting the normalised stream at `\n` yields each event's `data:` line followed by one empty line, with no remainder. |
| `Wire.UnescapeEscape` | supabase/functions/chat/index.ts:223-226 | Decoding the JSON string escape of a text gives back the text, for every character including controls, quotes and backslashes. |
| `Wire.DecodeContentJsonRoundTrip` | supabase/functions/chat/index.ts:223-226 | The reference decoder reads back exactly the text of a stringified content object. |
| `Transcoder.TransformLine` | supabase/functions/chat/index.ts:213-233 | Only `data: ` lines emit. `data: [DONE]` emits Done. Any other payload emits Done exactly when it parses as `message_stop`. A content event is emitted exactly when the payload is a `content_block_delta` with non-empty `delta.text`, and it carries that text. |
| `Transcoder.TransformLines` | supabase/functions/chat/index.ts:213-234 | Each line emits at most one event. What each line emits is `Transcoder.TransformLine`, and the order is `Transcoder.TransformLinesAppend`. |
| `Transcoder.Transform` | supabase/functions/chat/index.ts:209-235 | Each piece of `split("\n")` emits at most one event. `Transcoder.TransformAligned` states when chunking does not matter. |
| `Transcoder.ServerOut` | supabase/functions/chat/index.ts:208-236 | No contract of its own: the events of the chunks, chunk by chunk. `Transcoder.ServerOutAligned` relates it to the transform of the whole text. |
| `Transcoder.TransformLinesAppend` | supabase/functions/chat/index.ts:213-234 | Events come out in line order: two runs of lines give their events concatenated. |
| `Transcoder.NonDataLinesSilent` | supabase/functions/chat/index.ts:214 | Lines that do not start with `data: ` (the `event:` lines, comments, blanks) emit nothing. |
| `Transcoder.TransformAligned` | supabase/functions/chat/index.ts:209-211 | When the first chunk ends in `\n`, transforming two chunks separately equals transforming their concatenation. |
| `Transcoder.ServerOutAligned` | supabase/functions/chat/index.ts:209-235 | When every chunk but the last ends in `\n`, the per-chunk output equals the transform of the whole text. |
| `Transcoder.DoneLineTransformed` | supabase/functions/chat/index.ts:216-218 | A `data: [DONE]` line arriving whole is passed on as exactly one Done event. |
| `Transcoder.SplitLineIsLost` | supabase/functions/chat/index.ts:209-214 | The transform keeps no state between chunks, so a `data: [DONE]` line split after `da` emits nothing. |
| `Transcoder.ContentTextMatchesUpstream` | supabase/functions/chat/index.ts:222-226 | The concatenated content of the emitted events equals the concatenated non-empty `delta.text` of the provider lines, in order. |
| `Transcoder.ContentCountMatchesUpstream` | supabase/functions/chat/index.ts:222-226 | The emitted content events are exactly as many as the provider lines with non-empty delta text. |
| `ChatHandler.LastUserMessage` | supabase/functions/chat/index.ts:152 | None exactly when no turn has role `user`. Otherwise the result is a `user` turn of the list, and no later turn is a `user` turn. |
| `ChatHandler.FormatRow` | supabase/functions/chat/index.ts:123-124 | A formatted row is the tag `[Relevance: R%]` and a newline, then the snippet's text: it starts with that tag, ends with the text, and is exactly as long as the two. |
| `ChatHandler.JoinWith` | supabase/functions/chat/index.ts:125 | A join starts with the first part and ends with the last, and is at least as long as its separators. |
| `ChatHandler.JoinLayout` | supabase/functions/chat/index.ts:125 | In a join, part `n` sits at its offset. A separator follows every part but the last, and the last part ends the join, so the parts and separators tile it in order. |
| `ChatHandler.RowInJoin` | supabase/functions/chat/index.ts:123-125 | Every row's text occurs in the joined rows. |
| `ChatHandler.RetrievalContext` | supabase/functions/chat/index.ts:102-131 | The context is empty exactly when the attempt threw, the embedding came back empty, or the RPC failed or matched nothing. Otherwise it starts with the knowledge-base header. |
| `ChatHandler.RetrievalEnabled` | supabase/functions/chat/index.ts:156 | No contract of its own: the condition under which `ChatHandler.SystemPrompt` appends the context. Retrieval needs the OpenAI key, the URL, the service key and a user turn. |
| `ChatHandler.SystemPrompt` | supabase/functions/chat/index.ts:152-165 | The prompt always starts with the base prompt. It is the base prompt alone unless the OpenAI key, URL and service key are all set and a user turn exists. In that case the context for the last user turn's text is appended. |
| `ChatHandler.UpstreamReply` | supabase/functions/chat/index.ts:188-203 | The reply is a stream exactly for a 2xx status, and a 429 exactly for status 429. Every other JSON error has status 500. |
| `ChatHandler.Handle` | supabase/functions/chat/index.ts:135-247 | A preflight gets the bare CORS reply. A body that `req.json()` rejects, or the body `null` (destructuring it throws), gives a 500 with the thrown message before the key check. A missing provider key then gives a 500 with the key message, and no prompt is built. This also holds for a non-null body whose `messages` is not a list. With the key set, such a body gives a 500 with the message that filtering it throws. Otherwise the provider is sent the system prompt and the status reply is returned. |
| `ChatHandler.MissingKeyFailsFirst` | supabase/functions/chat/index.ts:146-152 | Without the provider key the reply does not depend on the base prompt, the other settings, retrieval, the provider or whether a non-null body's `messages` is a list, and no prompt is built. |
| `ChatHandler.EmptyRetrievalKeepsBase` | supabase/functions/chat/index.ts:128-131 | When retrieval yields the empty context, the provider gets exactly the base prompt. |
| `ChatHandler.SnippetReachesPrompt` | supabase/functions/chat/index.ts:122-128 | When retrieval succeeds, every matched snippet's text occurs in the system prompt. |
| `Consumer.StripCR` | src/components/Chatbot.tsx:58 | The result is a prefix of the line. It is one character shorter exactly when the line ends in `\r`, and otherwise it is the whole line. |
| `Consumer.ClassifyLine` | src/components/Chatbot.tsx:59-68 | No contract of its own: the filters on a line whose `\r` is already dropped. `Consumer.ClassifyStripCR` shows that dropping it twice changes nothing. |
| `Consumer.Classify` | src/components/Chatbot.tsx:58-68 | No contract of its own: `Consumer.ClassifyMeaning` states what it returns for every line as cut. |
| `Consumer.ClassifyPayload` | src/components/Chatbot.tsx:62-83 | No contract of its own: `Consumer.ClassifyMeaning` states what a trimmed payload means. |
| `Consumer.ClassifyMeaning` | src/components/Chatbot.tsx:58-68 | After one `\r` is dropped, only `data: ` lines matter. Their trimmed payload stops the loop exactly when it is `[DONE]`, and is unparsable exactly when the parser throws. It is a delta exactly when it parses to non-empty content, and the delta carries that content. |
| `Consumer.ClassifyStripCR` | src/components/Chatbot.tsx:58-62 | A line with its `\r` already dropped is classified the same as the raw line. |
| `Consumer.Absorb` | src/components/Chatbot.tsx:68-78 | The text grows by exactly the delta. A trailing assistant message gets the whole text as its content, with every other field and every earlier message kept. Any other transcript keeps all its messages and gets one new assistant message holding the whole text. |
| `Consumer.Drain` | src/components/Chatbot.tsx:54-84 | The inner loop only extends the accumulated text and never grows the buffer. |
| `Consumer.Feed` | src/components/Chatbot.tsx:51-84 | One read only extends the accumulated text, and the buffer grows by at most the chunk. |
| `Consumer.FeedAll` | src/components/Chatbot.tsx:47-85 | Over all reads the accumulated text only grows. What it holds is `Consumer.FeedAllFramed` and `Consumer.FeedAllChunking`. |
| `Consumer.DrainCut` | src/components/Chatbot.tsx:54-84 | One turn of the inner loop by line kind. Ignored lines are dropped. `[DONE]` stops with the rest still buffered. An unparsable line is put back with its newline and the loop stops. A delta is absorbed and the loop goes on. |
| `Consumer.DrainBuffer` | src/components/Chatbot.tsx:53-84 | The `indexOf` and `slice` loop, with its `continue`s, its two `break`s and its three mutable locals, computes the functional inner loop. |
| `Consumer.StreamChat` | src/components/Chatbot.tsx:44-85 | The read loop over every chunk received computes the functional outer loop, starting from an empty buffer and empty text. |
| `Consumer.AccumulateAppend` | src/components/Chatbot.tsx:54-84 | Acting on two runs of lines equals acting on the first and then on the second. |
| `Consumer.AccumulateInert` | src/components/Chatbot.tsx:59-63 | Ignored and `[DONE]` lines leave the turn unchanged. |
| `Consumer.AccumulateShape` | src/components/Chatbot.tsx:68-78 | After a run of lines, the text is the old text plus the run's delta texts in order. The transcript is unchanged when that sum is empty, and otherwise is tail-updated with the whole text. |
| `Consumer.DrainFramed` | src/components/Chatbot.tsx:54-84 | With no unparsable line in the buffer, the inner loop acts on the first k complete lines. It stops either at a `[DONE]` line or after every complete line, and keeps the text behind. |
| `Consumer.DrainStopsAtHead` | src/components/Chatbot.tsx:63 | A buffer whose first line is `[DONE]`: the loop stops with the rest still buffered, and the turn is as that one line leaves it. |
| `Consumer.DrainStopsAtFirstDone` | src/components/Chatbot.tsx:54-84 | The loop stops at the first `[DONE]`. When the lines before line i all pass and line i is `[DONE]`, it acts on exactly lines 0 to i and leaves the later lines buffered. |
| `Consumer.FeedAllFramed` | src/components/Chatbot.tsx:47-85 | With no unparsable line in the whole received text, the reader's turn is the effect of the first n complete lines, and everything after them is still buffered. Fewer than all lines are taken only when the last one taken is `[DONE]`. |
| `Consumer.FeedAllChunking` | src/components/Chatbot.tsx:47-85 | When no complete line stops or fails, chunking does not matter: the turn is the effect of all complete lines of the concatenated text, and the incomplete remainder stays buffered. After a `[DONE]` that is not the last line chunking does matter, as `Pipeline.EarlyStopChunkingMatters` shows. |
| `Consumer.FeedAllSettled` | src/components/Chatbot.tsx:47-85 | When the lines are passing lines followed by lines that leave the turn alone, the final turn is the effect of the passing lines, however the text was chunked. |
| `Consumer.DrainFailsAtHead` | src/components/Chatbot.tsx:80-83 | A buffer whose first complete line does not parse: that line goes back, without its `\r`, ahead of the later lines and the remainder, and the turn is unchanged. |
| `Consumer.DrainStopsAtFirstUnparsable` | src/components/Chatbot.tsx:54-84 | When lines 0 to i-1 all pass and line i does not parse, the loop acts on exactly lines 0 to i-1. Line i goes back, without its `\r`, ahead of the later lines and the remainder. |
| `Consumer.FirstUnparsableStarves` | src/components/Chatbot.tsx:47-85 | After that failure the reader is stuck, and whatever arrives later, the turn stays the effect of lines 0 to i-1. |
| `Consumer.DrainStuck` | src/components/Chatbot.tsx:80-83 | A buffer that starts with an unparsable line is put back as it was, with its `\r` dropped. It stays stuck, and the turn is unchanged. |
| `Consumer.FeedAllStuck` | src/components/Chatbot.tsx:47-85 | Once stuck, no later chunk changes the turn, and the reader stays stuck. |
| `Pipeline.ReferenceParseDecodes` | src/components/Chatbot.tsx:66-67 | A parser exists that reads `choices[0].delta.content` back out of every stringified content object. |
| `Pipeline.ClassifyContentLine` | src/components/Chatbot.tsx:58-69 | A normalised content line with non-empty text is read by the client as a delta carrying exactly that text. |
| `Pipeline.ClassifyDoneLine` | src/components/Chatbot.tsx:62-63 | The normalised `data: [DONE]` line stops the client's inner loop. |
| `Pipeline.ReadContentLines` | src/components/Chatbot.tsx:58-78 | The lines of a run of content events all pass the client's filters, and their delta texts concatenate to the events' text. |
| `Pipeline.EmittedContentNonEmpty` | supabase/functions/chat/index.ts:222 | The server never emits a content event with empty text. |
| `Pipeline.SplitAtStop` | supabase/functions/chat/index.ts:216-228 | An event list whose content events are non-empty and that has no Done before its last event is a run of content events followed by at most one Done. |
| `Pipeline.ServerSide` | supabase/functions/chat/index.ts:208-236 | For line-aligned provider chunks, the emitted text equals the provider's delta text, and no emitted content is empty. |
| `Pipeline.ClientSide` | src/components/Chatbot.tsx:44-85 | For an event list with non-empty content and no Done before its last event, and a decoder that reads back the content objects, however its wire text is chunked in transit, the client ends with exactly the events' text. The transcript is tail-updated with that text, or unchanged when it is empty. |
| `Pipeline.EarlyStopChunkingMatters` | src/components/Chatbot.tsx:47-85 | Read in one chunk, a Done event followed by a content event stops with the content still buffered and the turn unchanged. Cut after the Done event, the same text reaches the content on the second read. So `Pipeline.EndToEnd` needs the stop to be last. |
| `Pipeline.EndToEnd` | supabase/functions/chat/index.ts:208-236 | For line-aligned provider chunks whose output has no Done before its last event, and a decoder that reads back the server's content objects, the client's final turn is the provider's concatenated delta text. The transcript's tail carries it. |

## Left out

- I/O is not modelled: the HTTP server (`serve`), CORS headers, `fetch` calls and `Deno.env` are parameters (`Config`, `Search`, `Upstream`) or are left out. The chunks the reader returns are a sequence parameter.
- `TextDecoder`: chunks are modelled as already-decoded strings. The server decodes each chunk on its own, without `stream: true`, so a multi-byte character split across chunks is not modelled. Dafny characters are Unicode scalar values, so lone surrogates are not modelled either.
- `JSON.parse` is a parameter on both sides (`UpstreamParser`, `PayloadParser`). The client's check `if (content)` is modelled for string content only: a non-string truthy `content` value is not modelled.
- The text of `BASE_SYSTEM_PROMPT` is a parameter. The request body sent to the provider (model name, token limit, messages) is not modelled, apart from the system prompt.
- `searchRelevantContent`: the embedding call, the RPC arguments (threshold, match count) and the formatting of similarity with `toFixed(0)` are not modelled. Relevance is given as an already formatted string, and the attempt's outcome is given as a `Search` value.
- `Transcoder.TransformLine`: `parsed.delta?.text` is modelled as an optional string (`UpstreamEvent.ContentBlockDelta`). A non-string truthy value, such as a number or an object, passes the source's check and is stringified into the content object, but the model cannot express it.
- `Consumer.DrainFramed`: says only that the last line acted on is `[DONE]` when lines are left over. That it is the first `[DONE]` is stated by `Consumer.DrainStopsAtFirstDone`. It requires that no line is unparsable; `Consumer.DrainStopsAtFirstUnparsable` covers a buffer with such a line.
- `Consumer.FeedAllFramed`: does not say which line ends each read's inner loop. Each read is one `Consumer.Drain` of the buffer followed by the chunk, and `Consumer.DrainStopsAtFirstDone` states that a drain stops at its first `[DONE]`.
- `Text.Lower`: only ASCII letters are lowered. Full Unicode case mapping, including characters whose lower case is longer, is out of reach.
- `Transcript.IsPriceQuery`: `toLowerCase` is modelled as ASCII-only lowering, because full Unicode case mapping is out of reach. Non-ASCII letters are compared unlowered.
- React state, rendering, the loading flag, input handling and the error message `handleSend` appends when `streamChat` rejects are not modelled. Neither are the non-OK response branch of `streamChat` and the ChatContactForm component.
- Logging (`console.log` and `console.error`) is not modelled.
- `Consumer.StreamChat`: the asynchronous reads are modelled as a loop over a given sequence of chunks. Cancellation and transport errors are not modelled.

=== FILE: chat_handler.dfy ===
/**
 The chat function's request handling around the stream transform: the
 provider-key check, the choice of the retrieval query, the knowledge-base
 context that is appended to the system prompt (or not), and the mapping of
 the provider's status onto the reply. The base prompt text, the embedding and
 search services and the provider call are inputs.
 */
module ChatHandler {
  import opened Wrappers
  import opened Text

  /** The function's environment; "" stands for a variable that is unset or empty (both falsy). */
  datatype Config = Config(anthropicKey: string, openaiKey: string, supabaseUrl: string, serviceRoleKey: string)

  /** A turn as the function receives it; any role string is possible. */
  datatype ChatMessage = ChatMessage(role: string, content: string)

  /**
   The request: a preflight; a body that `req.json()` rejected, or the body `null`, whose
   destructuring throws before the key check; a non-null body whose `messages` is not a
   list, so that filtering it throws once the key check has passed; or the messages.
   */
  datatype Request = Preflight | Unreadable(error: string) | Malformed(error: string) | Chat(messages: seq<ChatMessage>)

  /** A knowledge-base match: its text and its similarity already formatted as a whole percentage. */
  datatype Snippet = Snippet(content: string, relevance: string)

  /** What the match RPC answered. */
  datatype Rpc = RpcError | NoData | Rows(rows: seq<Snippet>)

  /** How a retrieval attempt went: it threw, or it got an embedding of some length and then an RPC answer. */
  datatype Search = Threw | Embedded(embeddingLength: nat, rpc: Rpc)

  /** The provider's answer to the request: an HTTP status, or a failure of the call itself. */
  datatype Upstream = Status(code: int) | CallFailed(error: string)

  datatype Reply = PreflightOk | EventStream | JsonError(status: int, error: string)

  /** The reply, and the system prompt the provider was sent (None when no request was made). */
  datatype Handled = Handled(prompt: Option<string>, reply: Reply)

  const KeyMissingError := "ANTHROPIC_API_KEY is not configured"
  const RateLimitError := "Rate limit exceeded. Please try again later."
  const ServiceError := "AI service error"
  const ContextHeader :=
    "\n\n=== ADDITIONAL CONTEXT FROM KNOWLEDGE BASE ===\nThe following information may be relevant to the user's question:\n\n"
  const RowSeparator := "\n\n---\n\n"

  /** `messages.filter(m => m.role === "user").pop()`. */
  function LastUserMessage(msgs: seq<ChatMessage>): (r: Option<ChatMessage>)
    ensures r.None? <==> forall i :: 0 <= i < |msgs| ==> msgs[i].role != "user"
    ensures r.Some? ==> (r.value.role == "user" &&
      exists i :: 0 <= i < |msgs| && msgs[i] == r.value && forall j :: i < j < |msgs| ==> msgs[j].role != "user")
  {
    if msgs == [] then None
    else
      var n := |msgs| - 1;
      if msgs[n].role == "user" then
        Some(msgs[n])
      else
        var r := LastUserMessage(msgs[..n]);
        assert forall i :: 0 <= i < n ==> msgs[..n][i] == msgs[i];
        if r.Some? then
          var i :| 0 <= i < n && msgs[..n][i] == r.value && forall j :: i < j < n ==> msgs[..n][j].role != "user";
          assert msgs[i] == r.value && forall j :: i < j < |msgs| ==> msgs[j].role != "user";
          r
        else r
  }

  /** One matched row: its relevance tag on a line of its own, then its text. */
  function FormatRow(s: Snippet): (r: string)
    ensures StartsWith(r, "[Relevance: " + s.relevance + "%]\n")
    ensures EndsWith(r, s.content) && |r| == |s.relevance| + |s.content| + 15
  {
    var tag := "[Relevance: " + s.relevance + "%]\n";
    assert (tag + s.content)[..|tag|] == tag;
    tag + s.content
  }

  /** `parts.join(sep)` for a non-empty list. */
  function JoinWith(parts: seq<string>, sep: string): (r: string)
    requires |parts| > 0
    ensures StartsWith(r, parts[0]) && EndsWith(r, parts[|parts| - 1])
    ensures |r| >= (|parts| - 1) * |sep|
  {
    if |parts| == 1 then parts[0] else parts[0] + sep + JoinWith(parts[1..], sep)
  }

  function FormatRows(rows: seq<Snippet>): seq<string> {
    seq(|rows|, i requires 0 <= i < |rows| => FormatRow(rows[i]))
  }

  /**
   `searchRelevantContent`: the context block for a retrieval attempt. It is "" when the
   attempt threw, the embedding came back empty, or the RPC failed or matched nothing;
   otherwise it is the header followed by the formatted rows.
   */
  function RetrievalContext(s: Search): (r: string)
    ensures r == "" <==> s.Threw? || s.embeddingLength == 0 || !s.rpc.Rows? || |s.rpc.rows| == 0
    ensures r != "" ==> StartsWith(r, ContextHeader)
  {
    if s.Threw? || s.embeddingLength == 0 then ""
    else match s.rpc
      case Rows(rows) =>
        if |rows| == 0 then ""
        else
          var r := ContextHeader + JoinWith(FormatRows(rows), RowSeparator);
          assert r[..|ContextHeader|] == ContextHeader;
          r
      case _ => ""
  }

  /** Retrieval is attempted only with all three retrieval settings and some user turn. */
  predicate RetrievalEnabled(cfg: Config, msgs: seq<ChatMessage>) {
    cfg.openaiKey != "" && cfg.supabaseUrl != "" && cfg.serviceRoleKey != "" && LastUserMessage(msgs).Some?
  }

  /** The system prompt: the base prompt, followed by the context for the last user turn when retrieval is attempted. */
  function SystemPrompt(base: string, cfg: Config, msgs: seq<ChatMessage>, search: string -> Search): (p: string)
    ensures StartsWith(p, base)
    ensures !RetrievalEnabled(cfg, msgs) ==> p == base
    ensures RetrievalEnabled(cfg, msgs) ==> p == base + RetrievalContext(search(LastUserMessage(msgs).value.content))
  {
    var p := if RetrievalEnabled(cfg, msgs) then base + RetrievalContext(search(LastUserMessage(msgs).value.content)) else base;
    assert p[..|base|] == base;
    p
  }

  /** The reply for the provider's answer: its stream on 2xx, 429 passed on, every other failure a 500. */
  function UpstreamReply(u: Upstream): (r: Reply)
    ensures r != PreflightOk
    ensures r.JsonError? ==> r.status == 429 || r.status == 500
    ensures r.EventStream? <==> u.Status? && 200 <= u.code < 300
    ensures r.JsonError? && r.status == 429 <==> u == Status(429)
  {
    match u
    case CallFailed(e) => JsonError(500, e)
    case Status(c) =>
      if 200 <= c < 300 then EventStream
      else if c == 429 then JsonError(429, RateLimitError)
      else JsonError(500, ServiceError)
  }

  /** The whole handler, from the request to the reply. */
  function Handle(req: Request, base: string, cfg: Config, search: string -> Search, upstream: Upstream): (h: Handled)
    ensures h.prompt.Some? <==> req.Chat? && cfg.anthropicKey != ""
    ensures h.prompt.Some? ==> h.prompt.value == SystemPrompt(base, cfg, req.messages, search) && h.reply == UpstreamReply(upstream)
    ensures (req.Chat? || req.Malformed?) && cfg.anthropicKey == "" ==> h.reply == JsonError(500, KeyMissingError)
    ensures req.Unreadable? ==> h.reply == JsonError(500, req.error)
    ensures req.Malformed? && cfg.anthropicKey != "" ==> h.reply == JsonError(500, req.error)
    ensures req.Preflight? <==> h.reply == PreflightOk
  {
    match req
    case Preflight => Handled(None, PreflightOk)
    case Unreadable(e) => Handled(None, JsonError(500, e))
    case Malformed(e) =>
      if cfg.anthropicKey == "" then Handled(None, JsonError(500, KeyMissingError))
      else Handled(None, JsonError(500, e))
    case Chat(msgs) =>
      if cfg.anthropicKey == "" then Handled(None, JsonError(500, KeyMissingError))
      else Handled(Some(SystemPrompt(base, cfg, msgs, search)), UpstreamReply(upstream))
  }

  /**
   A missing provider key fails before `messages` is used, retrieval or the provider call:
   nothing else matters, not even whether `messages` is a list.
   */
  lemma {:induction false} MissingKeyFailsFirst(msgs: seq<ChatMessage>, e: string, base1: string, base2: string, cfg1: Config, cfg2: Config,
                             search1: string -> Search, search2: string -> Search, up1: Upstream, up2: Upstream)
    requires cfg1.anthropicKey == "" && cfg2.anthropicKey == ""
    ensures Handle(Chat(msgs), base1, cfg1, search1, up1) == Handle(Chat(msgs), base2, cfg2, search2, up2)
    ensures Handle(Malformed(e), base1, cfg1, search1, up1) == Handle(Chat(msgs), base2, cfg2, search2, up2)
    ensures Handle(Chat(msgs), base1, cfg1, search1, up1).prompt.None?
  {
  }

  /** When retrieval yields nothing the provider is sent exactly the base prompt. */
  lemma {:induction false} EmptyRetrievalKeepsBase(base: string, cfg: Config, msgs: seq<ChatMessage>, search: string -> Search)
    requires RetrievalEnabled(cfg, msgs)
    requires RetrievalContext(search(LastUserMessage(msgs).value.content)) == ""
    ensures SystemPrompt(base, cfg, msgs, search) == base
  {
    assert base + "" == base;
  }

  // Every matched snippet reaches the prompt.

  lemma {:induction false} OccursShift(s: string, k: string, i: int, x: string)
    requires OccursAt(s, k, i)
    ensures OccursAt(x + s, k, |x| + i)
  {
    var xs := x + s;
    assert xs[|x|..] == s;
    assert xs[|x| + i..|x| + i + |k|] == xs[|x|..][i..i + |k|];
  }

  lemma {:induction false} OccursPrefix(s: string, k: string, t: string)
    requires s == k + t
    ensures OccursAt(s, k, 0)
  {
    assert s[..|k|] == k;
  }

  lemma {:induction false} OccursWithin(s: string, m: string, i: int, k: string, j: int)
    requires OccursAt(s, m, i) && OccursAt(m, k, j)
    ensures OccursAt(s, k, i + j)
  {
    assert forall t :: 0 <= t < |k| ==> s[i + j + t] == m[j + t] == k[t];
    assert s[i + j..i + j + |k|] == k;
  }

  /** The position of the `n`-th part in a join. */
  function PartOffset(parts: seq<string>, sep: string, n: nat): nat
    requires n < |parts|
  {
    if n == 0 then 0 else |parts[0]| + |sep| + PartOffset(parts[1..], sep, n - 1)
  }

  lemma {:induction false} JoinHasPart(parts: seq<string>, sep: string, n: nat)
    requires n < |parts|
    ensures OccursAt(JoinWith(parts, sep), parts[n], PartOffset(parts, sep, n))
  {
    if |parts| == 1 {
      OccursPrefix(parts[0], parts[0], "");
    } else if n == 0 {
      AppendAssoc(parts[0], sep, JoinWith(parts[1..], sep));
      OccursPrefix(JoinWith(parts, sep), parts[0], sep + JoinWith(parts[1..], sep));
    } else {
      JoinHasPart(parts[1..], sep, n - 1);
      OccursShift(JoinWith(parts[1..], sep), parts[n], PartOffset(parts[1..], sep, n - 1), parts[0] + sep);
    }
  }

  lemma {:induction false} JoinHasSeparator(parts: seq<string>, sep: string, n: nat)
    requires n < |parts| - 1
    ensures OccursAt(JoinWith(parts, sep), sep, PartOffset(parts, sep, n) + |parts[n]|)
  {
    var tail := JoinWith(parts[1..], sep);
    if n == 0 {
      OccursPrefix(sep + tail, sep, tail);
      OccursShift(sep + tail, sep, 0, parts[0]);
      AppendAssoc(parts[0], sep, tail);
    } else {
      JoinHasSeparator(parts[1..], sep, n - 1);
      OccursShift(tail, sep, PartOffset(parts[1..], sep, n - 1) + |parts[n]|, parts[0] + sep);
    }
  }

  lemma {:induction false} JoinLength(parts: seq<string>, sep: string)
    requires |parts| > 0
    ensures |JoinWith(parts, sep)| == PartOffset(parts, sep, |parts| - 1) + |parts[|parts| - 1]|
  {
    if |parts| > 1 {
      var tail := parts[1..];
      JoinLength(tail, sep);
      assert tail[|tail| - 1] == parts[|parts| - 1];
      assert PartOffset(parts, sep, |parts| - 1) == |parts[0]| + |sep| + PartOffset(tail, sep, |tail| - 1);
      assert JoinWith(parts, sep) == parts[0] + sep + JoinWith(tail, sep);
    }
  }

  /**
   The layout of a join: part `n` sits at its offset, a separator follows every part but
   the last, and the last part ends the join, so parts and separators tile it in order.
   */
  lemma {:induction false} JoinLayout(parts: seq<string>, sep: string, n: nat)
    requires n < |parts|
    ensures OccursAt(JoinWith(parts, sep), parts[n], PartOffset(parts, sep, n))
    ensures n < |parts| - 1 ==> OccursAt(JoinWith(parts, sep), sep, PartOffset(parts, sep, n) + |parts[n]|)
    ensures n == |parts| - 1 ==> |JoinWith(parts, sep)| == PartOffset(parts, sep, n) + |parts[n]|
  {
    JoinHasPart(parts, sep, n);
    if n < |parts| - 1 {
      JoinHasSeparator(parts, sep, n);
    } else {
      JoinLength(parts, sep);
    }
  }

  /** Every row's text occurs in the joined rows. */
  lemma {:induction false} RowInJoin(rows: seq<Snippet>, n: nat)
    requires n < |rows|
    ensures Contains(JoinWith(FormatRows(rows), RowSeparator), rows[n].content)
  {
    var parts := FormatRows(rows);
    var row := rows[n];
    var tag := "[Relevance: " + row.relevance + "%]\n";
    JoinHasPart(parts, RowSeparator, n);
    OccursPrefix(row.content, row.content, "");
    OccursShift(row.content, row.content, 0, tag);
    assert OccursAt(parts[n], row.content, |tag|);
    OccursWithin(JoinWith(parts, RowSeparator), parts[n], PartOffset(parts, RowSeparator, n), row.content, |tag|);
  }

  /** Every matched row's text is in the system prompt the provider receives. */
  lemma {:induction false} SnippetReachesPrompt(base: string, cfg: Config, msgs: seq<ChatMessage>, search: string -> Search, n: nat)
    requires RetrievalEnabled(cfg, msgs)
    requires var s := search(LastUserMessage(msgs).value.content);
      s.Embedded? && s.embeddingLength > 0 && s.rpc.Rows? && n < |s.rpc.rows|
    ensures Contains(SystemPrompt(base, cfg, msgs, search), search(LastUserMessage(msgs).value.content).rpc.rows[n].content)
  {
    var rows := search(LastUserMessage(msgs).value.content).rpc.rows;
    var joined := JoinWith(FormatRows(rows), RowSeparator);
    RowInJoin(rows, n);
    var i :| OccursAt(joined, rows[n].content, i);
    AppendAssoc(base, ContextHeader, joined);
    OccursShift(joined, rows[n].content, i, base + ContextHeader);
  }
}

=== FILE: consumer.dfy ===
/**
 The widget's reading of the normalised event stream: decoded text is appended
 to a buffer, and the inner loop repeatedly cuts the buffer at its first `\n`,
 strips one trailing `\r`, skips comment, blank and non-`data: ` lines, stops on
 the `[DONE]` sentinel, pushes a line whose payload does not parse back onto the
 buffer and stops, and otherwise appends the payload's non-empty delta content
 to the accumulated assistant text and republishes it as the transcript's tail.
 `JSON.parse` of a payload is a parameter.
 */
module Consumer {
  import opened Wrappers
  import opened Text
  import opened Wire
  import opened Transcript

  /** What `JSON.parse` of a payload, then `choices?.[0]?.delta?.content`, yields. */
  datatype Payload =
    | Parsed(content: Option<string>)  // parsed; the content string if present
    | ParseError                        // `JSON.parse` threw (or reading the field did)

  type PayloadParser = string -> Payload

  /** How one extracted line affects the inner loop. */
  datatype LineKind = Ignore | Stop | Delta(text: string) | Unparsable

  /** The accumulated assistant text and the transcript it has been published into. */
  datatype Turn = Turn(content: string, messages: seq<Message>)

  /** The reader's state between reads: the undelivered text and the turn so far. */
  datatype Reader = Reader(buffer: string, turn: Turn)

  /** Drops one trailing carriage return, if there is one. */
  function StripCR(line: string): (r: string)
    ensures StartsWith(line, r) && |line| <= |r| + 1
    ensures |r| < |line| <==> EndsWith(line, "\r")
  {
    if EndsWith(line, "\r") then line[..|line| - 1] else line
  }

  /** What a trimmed `data: ` payload means to the inner loop. */
  function ClassifyPayload(parse: PayloadParser, jsonStr: string): LineKind {
    if jsonStr == DonePayload then Stop
    else match parse(jsonStr)
      case ParseError => Unparsable
      case Parsed(c) => if c.Some? && c.value != "" then Delta(c.value) else Ignore
  }

  /** The filters of the inner loop applied to a line whose `\r` has already been dropped. */
  function ClassifyLine(parse: PayloadParser, line: string): (k: LineKind)
  {
    if StartsWith(line, ":") || Trim(line) == "" then Ignore
    else if !StartsWith(line, DataPrefix) then Ignore
    else ClassifyPayload(parse, Trim(line[|DataPrefix|..]))
  }

  /** The kind of an extracted line: the inner loop's filters after dropping one trailing `\r`. */
  function Classify(parse: PayloadParser, raw: string): (k: LineKind)
  {
    ClassifyLine(parse, StripCR(raw))
  }

  lemma {:induction false} DataLineKept(line: string)
    requires StartsWith(line, DataPrefix)
    ensures !StartsWith(line, ":") && Trim(line) != ""
  {
    assert line[0] == 'd';
    TrimMeaning(line);
  }

  /**
   Only `data: ` lines matter: the comment and blank filters never catch one, since
   `d` is neither `:` nor whitespace. A `data: ` line's trimmed payload stops the loop
   when it is `[DONE]`, is unparsable when the parser throws, and is a delta exactly
   when it parses to non-empty content.
   */
  lemma {:induction false} ClassifyMeaning(parse: PayloadParser, raw: string)
    ensures var k := Classify(parse, raw); var line := StripCR(raw);
      && (!StartsWith(line, DataPrefix) ==> k == Ignore)
      && (StartsWith(line, DataPrefix) ==>
        var j := Trim(line[|DataPrefix|..]);
        && (k == Stop <==> j == DonePayload)
        && (k == Unparsable <==> j != DonePayload && parse(j).ParseError?)
        && (k.Delta? <==> j != DonePayload && parse(j).Parsed? && parse(j).content.Some? && parse(j).content.value != "")
        && (k.Delta? ==> k.text == parse(j).content.value))
  {
    var line := StripCR(raw);
    if StartsWith(line, DataPrefix) {
      DataLineKept(line);
      var j := Trim(line[|DataPrefix|..]);
      assert Classify(parse, raw) == ClassifyPayload(parse, j);
    }
  }

  /** Appends a delta to the accumulated text and republishes the whole text as the tail message. */
  function Absorb(t: Turn, text: string): (r: Turn)
    ensures r.content == t.content + text
    ensures EndsWithAssistant(r.messages) && r.messages[|r.messages| - 1].content == r.content
    ensures |r.messages| >= |t.messages| && forall i :: 0 <= i < |t.messages| - 1 ==> r.messages[i] == t.messages[i]
    ensures EndsWithAssistant(t.messages) ==>
      |r.messages| == |t.messages| && r.messages[|r.messages| - 1] == t.messages[|t.messages| - 1].(content := r.content)
    ensures !EndsWithAssistant(t.messages) ==> r.messages == t.messages + [Message(Assistant, r.content, false)]
  {
    var c := t.content + text;
    Turn(c, UpsertAssistant(t.messages, c))
  }

  /** The inner loop: cut, classify and act on lines until none is complete, or it stops. */
  function Drain(parse: PayloadParser, r: Reader): (d: Reader)
    decreases |r.buffer|
    ensures StartsWith(d.turn.content, r.turn.content)
    ensures |d.buffer| <= |r.buffer|
  {
    match CutLine(r.buffer)
    case None => r
    case Some(c) =>
      match Classify(parse, c.line)
      case Stop => Reader(c.rest, r.turn)
      case Unparsable => Reader(StripCR(c.line) + "\n" + c.rest, r.turn)
      case Ignore => Drain(parse, Reader(c.rest, r.turn))
      case Delta(x) =>
        var d := Drain(parse, Reader(c.rest, Absorb(r.turn, x)));
        StartsWithShorter(d.turn.content, r.turn.content, x);
        d
  }

  /** One read: the decoded chunk is appended to the buffer, then the inner loop runs. */
  function Feed(parse: PayloadParser, r: Reader, chunk: string): (d: Reader)
    ensures StartsWith(d.turn.content, r.turn.content)
    ensures |d.buffer| <= |r.buffer| + |chunk|
  {
    Drain(parse, Reader(r.buffer + chunk, r.turn))
  }

  /** The outer read loop over every chunk received, in order. */
  function FeedAll(parse: PayloadParser, r: Reader, chunks: seq<string>): (d: Reader)
    ensures StartsWith(d.turn.content, r.turn.content)
  {
    if chunks == [] then r
    else
      var before := FeedAll(parse, r, chunks[..|chunks| - 1]);
      var d := Feed(parse, before, chunks[|chunks| - 1]);
      StartsWithTrans(d.turn.content, before.turn.content, r.turn.content);
      d
  }

  /** One turn of the inner loop, by the kind of the line it cuts off. */
  lemma {:induction false} DrainCut(parse: PayloadParser, r: Reader, raw: string, rest: string)
    requires CutLine(r.buffer) == Some(Cut(raw, rest))
    ensures Classify(parse, raw) == Ignore ==> Drain(parse, r) == Drain(parse, Reader(rest, r.turn))
    ensures Classify(parse, raw) == Stop ==> Drain(parse, r) == Reader(rest, r.turn)
    ensures Classify(parse, raw) == Unparsable ==> Drain(parse, r) == Reader(StripCR(raw) + "\n" + rest, r.turn)
    ensures Classify(parse, raw).Delta? ==>
      Drain(parse, r) == Drain(parse, Reader(rest, Absorb(r.turn, Classify(parse, raw).text)))
  {
  }

  /** The inner loop as written: `indexOf`, slicing, `continue`, `break` and in-place updates of three locals. */
  method DrainBuffer(parse: PayloadParser, r0: Reader) returns (r: Reader)
    ensures r == Drain(parse, r0)
  {
    var textBuffer := r0.buffer;
    var assistantContent := r0.turn.content;
    var messages := r0.turn.messages;
    while true
      invariant Drain(parse, Reader(textBuffer, Turn(assistantContent, messages))) == Drain(parse, r0)
      decreases |textBuffer|
    {
      var newlineIndex := IndexOf(textBuffer, '\n');
      if newlineIndex == -1 {
        break;
      }
      CutLineAtIndexOf(textBuffer);
      ghost var before := textBuffer;
      var line := textBuffer[..newlineIndex];
      textBuffer := textBuffer[newlineIndex + 1..];
      ghost var raw := line;
      DrainCut(parse, Reader(before, Turn(assistantContent, messages)), raw, textBuffer);
      if EndsWith(line, "\r") {
        line := line[..|line| - 1];
      }
      assert line == StripCR(raw);
      if StartsWith(line, ":") || Trim(line) == "" {
        assert Classify(parse, raw) == Ignore;
        continue;
      }
      if !StartsWith(line, DataPrefix) {
        assert Classify(parse, raw) == Ignore;
        continue;
      }
      var jsonStr := Trim(line[6..]);
      assert Classify(parse, raw) == ClassifyPayload(parse, jsonStr);
      if jsonStr == DonePayload {
        break;
      }
      match parse(jsonStr) {
        case ParseError =>
          textBuffer := line + "\n" + textBuffer;
          break;
        case Parsed(content) =>
          if content.Some? && content.value != "" {
            assistantContent := assistantContent + content.value;
            messages := UpsertAssistant(messages, assistantContent);
          }
      }
    }
    r := Reader(textBuffer, Turn(assistantContent, messages));
  }

  /** The outer loop as written: every read appends its text and drains the buffer. */
  method StreamChat(parse: PayloadParser, chunks: seq<string>, messages: seq<Message>) returns (r: Reader)
    ensures r == FeedAll(parse, Reader("", Turn("", messages)), chunks)
  {
    r := Reader("", Turn("", messages));
    var i := 0;
    while i < |chunks|
      invariant 0 <= i <= |chunks|
      invariant r == FeedAll(parse, Reader("", Turn("", messages)), chunks[..i])
    {
      assert chunks[..i + 1][..i] == chunks[..i];
      r := DrainBuffer(parse, Reader(r.buffer + chunks[i], r.turn));
      i := i + 1;
    }
    assert chunks[..i] == chunks;
  }

  // The effect of the lines the inner loop goes past.

  /** A line that does not stop the inner loop. */
  predicate Passes(parse: PayloadParser, raw: string) {
    Classify(parse, raw) == Ignore || Classify(parse, raw).Delta?
  }

  /** A line that leaves the turn as it is. */
  predicate Inert(parse: PayloadParser, raw: string) {
    Classify(parse, raw) == Ignore || Classify(parse, raw) == Stop
  }

  predicate NoUnparsable(parse: PayloadParser, ls: seq<string>) {
    forall i :: 0 <= i < |ls| ==> Classify(parse, ls[i]) != Unparsable
  }

  function Step(parse: PayloadParser, t: Turn, raw: string): Turn {
    match Classify(parse, raw)
    case Delta(x) => Absorb(t, x)
    case _ => t
  }

  /** The turn after acting on a run of lines in order. */
  function Accumulate(parse: PayloadParser, t: Turn, ls: seq<string>): Turn
    decreases |ls|
  {
    if ls == [] then t else Accumulate(parse, Step(parse, t, ls[0]), ls[1..])
  }

  /** The delta texts of a run of lines, concatenated in order. */
  function DeltaTexts(parse: PayloadParser, ls: seq<string>): string
    decreases |ls|
  {
    if ls == [] then ""
    else HeadText(parse, ls[0]) + DeltaTexts(parse, ls[1..])
  }

  lemma {:induction false} AccumulateAppend(parse: PayloadParser, t: Turn, a: seq<string>, b: seq<string>)
    ensures Accumulate(parse, t, a + b) == Accumulate(parse, Accumulate(parse, t, a), b)
    decreases |a|
  {
    if a == [] {
      assert a + b == b;
    } else {
      assert (a + b)[1..] == a[1..] + b;
      AccumulateAppend(parse, Step(parse, t, a[0]), a[1..], b);
    }
  }

  lemma {:induction false} AccumulateInert(parse: PayloadParser, t: Turn, ls: seq<string>)
    requires forall i :: 0 <= i < |ls| ==> Inert(parse, ls[i])
    ensures Accumulate(parse, t, ls) == t
    decreases |ls|
  {
    if ls != [] {
      assert Inert(parse, ls[0]);
      AccumulateInert(parse, t, ls[1..]);
    }
  }

  /** The head line's delta text, "" when it carries none. */
  function HeadText(parse: PayloadParser, raw: string): string {
    match Classify(parse, raw) case Delta(x) => x case _ => ""
  }

  lemma {:induction false} StepText(parse: PayloadParser, t: Turn, raw: string)
    ensures var x := HeadText(parse, raw);
      Step(parse, t, raw) == if x == "" then t else Absorb(t, x)
  {
  }

  /**
   The accumulated text is the previous text followed by every delta, in order; the
   transcript is republished once with the final text, or left alone when no delta came.
   */
  lemma {:induction false} AccumulateShape(parse: PayloadParser, t: Turn, ls: seq<string>)
    decreases |ls|
    ensures var d := DeltaTexts(parse, ls);
      Accumulate(parse, t, ls) == Turn(t.content + d, if d == "" then t.messages else UpsertAssistant(t.messages, t.content + d))
  {
    if ls == [] {
      assert t.content + "" == t.content;
    } else {
      var x := HeadText(parse, ls[0]);
      var t1 := Step(parse, t, ls[0]);
      StepText(parse, t, ls[0]);
      AccumulateShape(parse, t1, ls[1..]);
      var d1 := DeltaTexts(parse, ls[1..]);
      assert DeltaTexts(parse, ls) == x + d1;
      if x != "" {
        var c1 := t.content + x;
        assert t1 == Turn(c1, UpsertAssistant(t.messages, c1));
        AppendAssoc(t.content, x, d1);
        assert c1 + d1 == t.content + (x + d1);
        if d1 != "" {
          UpsertOverrides(t.messages, c1, c1 + d1);
        } else {
          assert c1 + d1 == c1;
        }
      } else {
        assert x + d1 == d1;
        assert t1 == t;
      }
    }
  }

  // The inner loop on a whole buffer.

  lemma {:induction false} LinesCons(s: string)
    requires CutLine(s).Some?
    ensures Lines(s) == Framing([CutLine(s).value.line] + Lines(CutLine(s).value.rest).lines, Lines(CutLine(s).value.rest).rest)
  {
  }

  /** A line that does not stop the loop acts on the turn and the loop carries on with the rest. */
  lemma {:induction false} DrainPasses(parse: PayloadParser, r: Reader)
    requires CutLine(r.buffer).Some? && Passes(parse, CutLine(r.buffer).value.line)
    ensures var c := CutLine(r.buffer).value;
      Drain(parse, r) == Drain(parse, Reader(c.rest, Step(parse, r.turn, c.line)))
  {
  }

  lemma {:induction false} ConsSlices<T>(l: T, g: seq<T>, k: nat)
    requires k <= |g|
    ensures ([l] + g)[k + 1..] == g[k..]
    ensures ([l] + g)[..k + 1] == [l] + g[..k]
  {
  }

  lemma {:induction false} AccumulateCons(parse: PayloadParser, t: Turn, l: string, ls: seq<string>)
    ensures Accumulate(parse, t, [l] + ls) == Accumulate(parse, Step(parse, t, l), ls)
  {
    assert ([l] + ls)[1..] == ls;
  }

  /**
   With no unparsable line, the inner loop acts on a prefix of the buffer's complete
   lines and leaves the others, with the remainder, in the buffer; it leaves some only
   when the last line it took was the `[DONE]` sentinel.
   */
  lemma {:induction false} DrainFramed(parse: PayloadParser, r: Reader) returns (k: nat)
    requires NoUnparsable(parse, Lines(r.buffer).lines)
    decreases |r.buffer|
    ensures var f := Lines(r.buffer);
      && k <= |f.lines|
      && Drain(parse, r) == Reader(Joined(f.lines[k..]) + f.rest, Accumulate(parse, r.turn, f.lines[..k]))
      && (k < |f.lines| ==> 0 < k && Classify(parse, f.lines[k - 1]) == Stop)
  {
    var f := Lines(r.buffer);
    var cut := CutLine(r.buffer);
    if cut.None? {
      k := 0;
      assert f.lines == [];
      assert Joined(f.lines[k..]) + f.rest == r.buffer;
    } else {
      var c := cut.value;
      LinesCons(r.buffer);
      var g := Lines(c.rest);
      assert f.lines == [c.line] + g.lines && f.rest == g.rest;
      assert f.lines[0] == c.line;
      assert NoUnparsable(parse, g.lines) by {
        assert forall i :: 0 <= i < |g.lines| ==> g.lines[i] == f.lines[i + 1];
      }
      if Classify(parse, c.line) == Stop {
        k := 1;
        LinesJoined(c.rest);
        ConsSlices(c.line, g.lines, 0);
        AccumulateCons(parse, r.turn, c.line, []);
        assert g.lines[..0] == [];
      } else {
        assert Passes(parse, c.line);
        DrainPasses(parse, r);
        var k1 := DrainFramed(parse, Reader(c.rest, Step(parse, r.turn, c.line)));
        k := k1 + 1;
        ConsSlices(c.line, g.lines, k1);
        AccumulateCons(parse, r.turn, c.line, g.lines[..k1]);
      }
    }
  }

  lemma {:induction false} PassesTail(parse: PayloadParser, l: string, ls: seq<string>, i: nat, k: LineKind)
    requires 0 < i <= |ls|
    requires forall j :: 0 <= j < i ==> Passes(parse, ([l] + ls)[j])
    requires Classify(parse, ([l] + ls)[i]) == k
    ensures Passes(parse, l) && Classify(parse, ls[i - 1]) == k
    ensures forall j :: 0 <= j < i - 1 ==> Passes(parse, ls[j])
  {
    assert ([l] + ls)[0] == l;
    assert forall j :: 0 <= j < i - 1 ==> ([l] + ls)[j + 1] == ls[j];
  }

  /** A buffer whose first line is the sentinel: the loop stops with the rest buffered and the turn as it was. */
  lemma {:induction false} DrainStopsAtHead(parse: PayloadParser, r: Reader)
    requires |Lines(r.buffer).lines| > 0
    requires Classify(parse, Lines(r.buffer).lines[0]) == Stop
    ensures var f := Lines(r.buffer);
      Drain(parse, r) == Reader(Joined(f.lines[1..]) + f.rest, Accumulate(parse, r.turn, f.lines[..1]))
  {
    var f := Lines(r.buffer);
    var c := CutLine(r.buffer).value;
    LinesCons(r.buffer);
    var g := Lines(c.rest);
    assert f.lines == [c.line] + g.lines && f.rest == g.rest;
    DrainCut(parse, r, c.line, c.rest);
    LinesJoined(c.rest);
    ConsSlices(c.line, g.lines, 0);
    assert g.lines[0..] == g.lines && g.lines[..0] == [];
    AccumulateCons(parse, r.turn, c.line, []);
  }

  /**
   The inner loop stops at the first `[DONE]`: when the lines before line `i` all pass
   and line `i` is the sentinel, it acts on exactly lines `0..i` and leaves the rest.
   */
  lemma {:induction false} DrainStopsAtFirstDone(parse: PayloadParser, r: Reader, i: nat)
    requires i < |Lines(r.buffer).lines|
    requires forall j :: 0 <= j < i ==> Passes(parse, Lines(r.buffer).lines[j])
    requires Classify(parse, Lines(r.buffer).lines[i]) == Stop
    decreases |r.buffer|
    ensures var f := Lines(r.buffer);
      Drain(parse, r) == Reader(Joined(f.lines[i + 1..]) + f.rest, Accumulate(parse, r.turn, f.lines[..i + 1]))
  {
    if i == 0 {
      DrainStopsAtHead(parse, r);
    } else {
      var c := CutLine(r.buffer).value;
      var g := Lines(c.rest);
      assert Lines(r.buffer) == Framing([c.line] + g.lines, g.rest) by {
        LinesCons(r.buffer);
      }
      PassesTail(parse, c.line, g.lines, i, Stop);
      var r1 := Reader(c.rest, Step(parse, r.turn, c.line));
      assert Drain(parse, r) == Drain(parse, r1) by {
        DrainPasses(parse, r);
      }
      DrainStopsAtFirstDone(parse, r1, i - 1);
      ConsRegroup(parse, r.turn, c.line, g.lines, g.rest, i, Drain(parse, r));
    }
  }

  /** The reader after the first line and a drain of the next `i`, restated over all the lines. */
  lemma {:induction false} ConsRegroup(parse: PayloadParser, t: Turn, l: string, ls: seq<string>, rest: string, i: nat, d: Reader)
    requires i <= |ls|
    requires d == Reader(Joined(ls[i..]) + rest, Accumulate(parse, Step(parse, t, l), ls[..i]))
    ensures d == Reader(Joined(([l] + ls)[i + 1..]) + rest, Accumulate(parse, t, ([l] + ls)[..i + 1]))
  {
    ConsSlices(l, ls, i);
    AccumulateCons(parse, t, l, ls[..i]);
  }

  /** A buffer whose first line does not parse: the loop puts it back without its `\r`, with the turn as it was. */
  lemma {:induction false} DrainFailsAtHead(parse: PayloadParser, r: Reader)
    requires |Lines(r.buffer).lines| > 0
    requires Classify(parse, Lines(r.buffer).lines[0]) == Unparsable
    ensures var f := Lines(r.buffer);
      Drain(parse, r) == Reader(StripCR(f.lines[0]) + "\n" + (Joined(f.lines[1..]) + f.rest), Accumulate(parse, r.turn, f.lines[..0]))
  {
    var f := Lines(r.buffer);
    var c := CutLine(r.buffer).value;
    LinesCons(r.buffer);
    var g := Lines(c.rest);
    assert f.lines == [c.line] + g.lines && f.rest == g.rest;
    DrainCut(parse, r, c.line, c.rest);
    LinesJoined(c.rest);
    ConsSlices(c.line, g.lines, 0);
    assert g.lines[0..] == g.lines;
  }

  /**
   A parse failure after lines that passed: when lines `0..i-1` all pass and line `i`
   does not parse, the loop acts on exactly lines `0..i-1` and puts line `i` back, without
   its `\r`, ahead of the lines after it.
   */
  lemma {:induction false} DrainStopsAtFirstUnparsable(parse: PayloadParser, r: Reader, i: nat)
    requires i < |Lines(r.buffer).lines|
    requires forall j :: 0 <= j < i ==> Passes(parse, Lines(r.buffer).lines[j])
    requires Classify(parse, Lines(r.buffer).lines[i]) == Unparsable
    decreases |r.buffer|
    ensures var f := Lines(r.buffer);
      Drain(parse, r) == Reader(StripCR(f.lines[i]) + "\n" + (Joined(f.lines[i + 1..]) + f.rest), Accumulate(parse, r.turn, f.lines[..i]))
  {
    if i == 0 {
      DrainFailsAtHead(parse, r);
    } else {
      var c := CutLine(r.buffer).value;
      var g := Lines(c.rest);
      assert Lines(r.buffer) == Framing([c.line] + g.lines, g.rest) by {
        LinesCons(r.buffer);
      }
      PassesTail(parse, c.line, g.lines, i, Unparsable);
      var r1 := Reader(c.rest, Step(parse, r.turn, c.line));
      assert Drain(parse, r) == Drain(parse, r1) by {
        DrainPasses(parse, r);
      }
      DrainStopsAtFirstUnparsable(parse, r1, i - 1);
      ConsRegroupFailed(parse, r.turn, c.line, g.lines, g.rest, i, Drain(parse, r));
    }
  }

  /** The reader after the first line and a drain that failed on line `i - 1` of the rest, restated over all the lines. */
  lemma {:induction false} ConsRegroupFailed(parse: PayloadParser, t: Turn, l: string, ls: seq<string>, rest: string, i: nat, d: Reader)
    requires 0 < i <= |ls|
    requires d == Reader(StripCR(ls[i - 1]) + "\n" + (Joined(ls[i..]) + rest), Accumulate(parse, Step(parse, t, l), ls[..i - 1]))
    ensures d == Reader(StripCR(([l] + ls)[i]) + "\n" + (Joined(([l] + ls)[i + 1..]) + rest), Accumulate(parse, t, ([l] + ls)[..i]))
  {
    ConsSlices(l, ls, i - 1);
    ConsSlices(l, ls, i);
    AccumulateCons(parse, t, l, ls[..i - 1]);
  }

  /**
   How the starvation starts: after a failure on line `i`, the reader is stuck, and no
   later read changes the turn from the effect of lines `0..i-1`.
   */
  lemma {:induction false} FirstUnparsableStarves(parse: PayloadParser, r: Reader, i: nat, later: seq<string>)
    requires i < |Lines(r.buffer).lines|
    requires forall j :: 0 <= j < i ==> Passes(parse, Lines(r.buffer).lines[j])
    requires Classify(parse, Lines(r.buffer).lines[i]) == Unparsable
    ensures Stuck(parse, Drain(parse, r).buffer)
    ensures FeedAll(parse, Drain(parse, r), later).turn == Accumulate(parse, r.turn, Lines(r.buffer).lines[..i])
  {
    var f := Lines(r.buffer);
    var l := f.lines[i];
    var rest := Joined(f.lines[i + 1..]) + f.rest;
    DrainStopsAtFirstUnparsable(parse, r, i);
    assert NoNewline(l);
    StripCRNoNewline(l);
    CutLineOf(StripCR(l), rest);
    ClassifyStripCR(parse, l);
    FeedAllStuck(parse, Drain(parse, r), later);
  }

  // The outer loop over every chunk.

  lemma {:induction false} NoUnparsableSplit(parse: PayloadParser, a: seq<string>, b: seq<string>)
    requires NoUnparsable(parse, a + b)
    ensures NoUnparsable(parse, a) && NoUnparsable(parse, b)
  {
    assert forall i :: 0 <= i < |a| ==> (a + b)[i] == a[i];
    assert forall i :: 0 <= i < |b| ==> (a + b)[|a| + i] == b[i];
  }

  lemma {:induction false} LinesAfterJoined(ls: seq<string>, s: string)
    requires AllNoNewline(ls)
    ensures Lines(Joined(ls) + s) == Framing(ls + Lines(s).lines, Lines(s).rest)
  {
    var g := Lines(s);
    LinesJoined(s);
    JoinedAppend(ls, g.lines);
    AppendAssoc(Joined(ls), Joined(g.lines), g.rest);
    AllNoNewlineAppend(ls, g.lines);
    LinesOfJoined(ls + g.lines, g.rest);
  }

  /** Acting on the first `n0` lines and then on `k` more is acting on the first `n0 + k`. */
  lemma {:induction false} RegroupReader(parse: PayloadParser, t: Turn, ls: seq<string>, n0: nat, k: nat, n: nat,
                                        f: Framing, rest: string, d: Reader)
    requires n == n0 + k <= |ls| && f.lines == ls[n0..] && f.rest == rest
    requires d == Reader(Joined(f.lines[k..]) + f.rest, Accumulate(parse, Accumulate(parse, t, ls[..n0]), f.lines[..k]))
    ensures d == Reader(Joined(ls[n..]) + rest, Accumulate(parse, t, ls[..n]))
  {
    RegroupParts(ls, f.lines, n0, k, n);
    AccumulateAppend(parse, t, ls[..n0], f.lines[..k]);
  }

  lemma {:induction false} RegroupParts<T>(ls: seq<T>, tail: seq<T>, n0: nat, k: nat, n: nat)
    requires n == n0 + k <= |ls| && tail == ls[n0..]
    ensures tail[k..] == ls[n..] && ls[..n] == ls[..n0] + tail[..k]
  {
  }

  lemma {:induction false} AllNoNewlineSuffix(ls: seq<string>, n: nat)
    requires AllNoNewline(ls) && n <= |ls|
    ensures AllNoNewline(ls[n..])
  {
    assert forall i :: 0 <= i < |ls| - n ==> ls[n..][i] == ls[n + i];
  }

  /**
   One read on a framed reader: the first `n0` of the lines `a` have been acted on and
   the others wait in the buffer before the remainder `rest`; afterwards a longer prefix
   of `a` followed by the new complete lines has been acted on.
   */
  lemma {:induction false} FeedFramed(parse: PayloadParser, t: Turn, a: seq<string>, rest: string, chunk: string, n0: nat) returns (n: nat)
    requires AllNoNewline(a) && n0 <= |a|
    requires NoUnparsable(parse, a + Lines(rest + chunk).lines)
    ensures var g := Lines(rest + chunk); var ls := a + g.lines;
      && n <= |ls|
      && Feed(parse, Reader(Joined(a[n0..]) + rest, Accumulate(parse, t, a[..n0])), chunk)
         == Reader(Joined(ls[n..]) + g.rest, Accumulate(parse, t, ls[..n]))
      && (n < |ls| ==> 0 < n && Classify(parse, ls[n - 1]) == Stop)
  {
    var g := Lines(rest + chunk);
    var ls := a + g.lines;
    var y := Joined(a[n0..]) + rest + chunk;
    var t1 := Accumulate(parse, t, ls[..n0]);
    FeedPending(parse, t, a, rest, chunk, n0);
    n := DrainRegrouped(parse, t, ls, n0, Reader(y, t1));
  }

  /** A read on a framed reader drains the pending lines, then the new ones, from the prefix's turn. */
  lemma {:induction false} FeedPending(parse: PayloadParser, t: Turn, a: seq<string>, rest: string, chunk: string, n0: nat)
    requires AllNoNewline(a) && n0 <= |a|
    requires NoUnparsable(parse, a + Lines(rest + chunk).lines)
    ensures var g := Lines(rest + chunk); var ls := a + g.lines; var y := Joined(a[n0..]) + rest + chunk;
      && Feed(parse, Reader(Joined(a[n0..]) + rest, Accumulate(parse, t, a[..n0])), chunk)
         == Drain(parse, Reader(y, Accumulate(parse, t, ls[..n0])))
      && Lines(y) == Framing(ls[n0..], g.rest)
      && NoUnparsable(parse, ls[n0..])
  {
    var g := Lines(rest + chunk);
    var ls := a + g.lines;
    PendingFraming(a, rest, chunk, n0);
    PrefixOfAppend(a, g.lines, n0);
    NoUnparsableSuffix(parse, ls, n0);
  }

  lemma {:induction false} PrefixOfAppend<T>(a: seq<T>, b: seq<T>, n: nat)
    requires n <= |a|
    ensures (a + b)[..n] == a[..n]
  {
  }

  lemma {:induction false} NoUnparsableSuffix(parse: PayloadParser, ls: seq<string>, n: nat)
    requires NoUnparsable(parse, ls) && n <= |ls|
    ensures NoUnparsable(parse, ls[n..])
  {
    assert forall i :: 0 <= i < |ls| - n ==> ls[n..][i] == ls[n + i];
  }

  /** Draining the lines after the first `n0`, from the turn those left, acts on a longer prefix. */
  lemma {:induction false} DrainRegrouped(parse: PayloadParser, t: Turn, ls: seq<string>, n0: nat, r: Reader) returns (n: nat)
    requires n0 <= |ls| && r.turn == Accumulate(parse, t, ls[..n0])
    requires Lines(r.buffer).lines == ls[n0..] && NoUnparsable(parse, ls[n0..])
    ensures && n0 <= n <= |ls|
      && Drain(parse, r) == Reader(Joined(ls[n..]) + Lines(r.buffer).rest, Accumulate(parse, t, ls[..n]))
      && (n < |ls| ==> 0 < n && Classify(parse, ls[n - 1]) == Stop)
  {
    var k := DrainFramed(parse, r);
    n := n0 + k;
    RegroupReader(parse, t, ls, n0, k, n, Lines(r.buffer), Lines(r.buffer).rest, Drain(parse, r));
    if n < |ls| {
      assert ls[n0..][k - 1] == ls[n - 1];
    }
  }

  /** The lines still waiting in the buffer come first when the buffer is next framed. */
  lemma {:induction false} PendingFraming(a: seq<string>, rest: string, chunk: string, n0: nat)
    requires AllNoNewline(a) && n0 <= |a|
    ensures var g := Lines(rest + chunk);
      Lines(Joined(a[n0..]) + rest + chunk) == Framing((a + g.lines)[n0..], g.rest)
  {
    var g := Lines(rest + chunk);
    var pending := a[n0..];
    assert pending + g.lines == (a + g.lines)[n0..];
    AllNoNewlineSuffix(a, n0);
    AppendAssoc(Joined(pending), rest, chunk);
    LinesAfterJoined(pending, rest + chunk);
  }

  /**
   With no unparsable line in all the text received, the reader has acted on a prefix
   of its complete lines, in order, and holds the others with the unterminated remainder;
   lines are left over only when the last line acted on was the `[DONE]` sentinel.
   */
  lemma {:induction false} FeedAllFramed(parse: PayloadParser, r: Reader, chunks: seq<string>) returns (n: nat)
    requires NoNewline(r.buffer)
    requires NoUnparsable(parse, Lines(r.buffer + Concat(chunks)).lines)
    decreases |chunks|
    ensures var f := Lines(r.buffer + Concat(chunks));
      && n <= |f.lines|
      && FeedAll(parse, r, chunks) == Reader(Joined(f.lines[n..]) + f.rest, Accumulate(parse, r.turn, f.lines[..n]))
      && (n < |f.lines| ==> 0 < n && Classify(parse, f.lines[n - 1]) == Stop)
  {
    if chunks == [] {
      n := 0;
      assert r.buffer + Concat(chunks) == r.buffer;
      assert Lines(r.buffer) == Framing([], r.buffer);
      assert Joined([]) + r.buffer == r.buffer;
    } else {
      var init := chunks[..|chunks| - 1];
      var last := chunks[|chunks| - 1];
      var x0 := r.buffer + Concat(init);
      AppendAssoc(r.buffer, Concat(init), last);
      assert r.buffer + Concat(chunks) == x0 + last;
      var f0 := Lines(x0);
      LinesAppend(x0, last);
      NoUnparsableSplit(parse, f0.lines, Lines(f0.rest + last).lines);
      var n1 := FeedAllFramed(parse, r, init);
      n := FeedFramed(parse, r.turn, f0.lines, f0.rest, last, n1);
    }
  }

  /**
   Chunking independence: when no line stops the loop or fails to parse, what the reader
   ends with depends only on the concatenation of the text received. It has acted on
   every complete line, and the text after the last `\n` stays in the buffer.
   */
  lemma {:induction false} FeedAllChunking(parse: PayloadParser, r: Reader, chunks: seq<string>)
    requires NoNewline(r.buffer)
    requires var ls := Lines(r.buffer + Concat(chunks)).lines; forall i :: 0 <= i < |ls| ==> Passes(parse, ls[i])
    ensures var f := Lines(r.buffer + Concat(chunks));
      FeedAll(parse, r, chunks) == Reader(f.rest, Accumulate(parse, r.turn, f.lines))
  {
    var f := Lines(r.buffer + Concat(chunks));
    assert NoUnparsable(parse, f.lines);
    var n := FeedAllFramed(parse, r, chunks);
    assert n == |f.lines|;
    assert f.lines[n..] == [] && f.lines[..n] == f.lines;
    assert Joined([]) + f.rest == f.rest;
  }

  /** Inert lines after a run leave the turn as the run left it. */
  lemma {:induction false} InertTail(parse: PayloadParser, t: Turn, a: seq<string>, b: seq<string>, m: nat)
    requires m <= |b| && forall i :: 0 <= i < |b| ==> Inert(parse, b[i])
    ensures Accumulate(parse, t, (a + b)[..|a| + m]) == Accumulate(parse, t, a)
  {
    assert (a + b)[..|a| + m] == a + b[..m];
    AccumulateAppend(parse, t, a, b[..m]);
    assert forall i :: 0 <= i < m ==> b[..m][i] == b[i];
    AccumulateInert(parse, Accumulate(parse, t, a), b[..m]);
  }

  lemma {:induction false} PassesNoStop(parse: PayloadParser, a: seq<string>, b: seq<string>)
    requires forall i :: 0 <= i < |a| ==> Passes(parse, a[i])
    requires forall i :: 0 <= i < |b| ==> Inert(parse, b[i])
    ensures NoUnparsable(parse, a + b)
    ensures forall i :: 0 <= i < |a| ==> Classify(parse, (a + b)[i]) != Stop
  {
    assert forall i :: 0 <= i < |a| ==> (a + b)[i] == a[i];
    assert forall i :: |a| <= i < |a + b| ==> (a + b)[i] == b[i - |a|];
  }

  /**
   A `[DONE]` sentinel cuts the inner loop short, but when every line after the last delta
   is blank, skipped or a sentinel, the turn is as if every line had been acted on.
   */
  lemma {:induction false} FeedAllSettled(parse: PayloadParser, r: Reader, chunks: seq<string>, a: seq<string>, b: seq<string>)
    requires NoNewline(r.buffer)
    requires Lines(r.buffer + Concat(chunks)).lines == a + b
    requires forall i :: 0 <= i < |a| ==> Passes(parse, a[i])
    requires forall i :: 0 <= i < |b| ==> Inert(parse, b[i])
    ensures FeedAll(parse, r, chunks).turn == Accumulate(parse, r.turn, a)
  {
    PassesNoStop(parse, a, b);
    var n := FeedAllFramed(parse, r, chunks);
    StopNotBefore(parse, a + b, |a|, n);
    InertTail(parse, r.turn, a, b, n - |a|);
  }

  /** A loop that may stop only on a sentinel has not stopped before the first sentinel. */
  lemma {:induction false} StopNotBefore(parse: PayloadParser, ls: seq<string>, m: nat, n: nat)
    requires m <= |ls| && n <= |ls|
    requires forall i :: 0 <= i < m ==> Classify(parse, ls[i]) != Stop
    requires n < |ls| ==> 0 < n && Classify(parse, ls[n - 1]) == Stop
    ensures m <= n
  {
  }

  // A line that never parses.

  lemma {:induction false} ClassifyLineCR(parse: PayloadParser, l: string)
    ensures ClassifyLine(parse, l + "\r") == ClassifyLine(parse, l)
  {
    var cr := l + "\r";
    TrimSnocWhitespace(l, '\r');
    assert StartsWith(cr, ":") <==> StartsWith(l, ":") by {
      if l != [] {
        assert cr[..1] == l[..1];
      }
    }
    assert StartsWith(cr, DataPrefix) <==> StartsWith(l, DataPrefix) by {
      if |l| >= |DataPrefix| {
        assert cr[..|DataPrefix|] == l[..|DataPrefix|];
      } else if |cr| == |DataPrefix| {
        assert cr[5] == '\r';
      }
    }
    if |l| >= |DataPrefix| {
      assert cr[|DataPrefix|..] == l[|DataPrefix|..] + "\r";
      TrimSnocWhitespace(l[|DataPrefix|..], '\r');
    }
  }

  /** A line put back without its `\r` classifies as it did the first time. */
  lemma {:induction false} ClassifyStripCR(parse: PayloadParser, raw: string)
    ensures Classify(parse, StripCR(raw)) == Classify(parse, raw)
  {
    var l := StripCR(raw);
    if EndsWith(l, "\r") {
      assert l == StripCR(l) + "\r";
      ClassifyLineCR(parse, StripCR(l));
    }
  }

  /** The buffer starts with a complete line whose payload does not parse. */
  predicate Stuck(parse: PayloadParser, buffer: string) {
    CutLine(buffer).Some? && Classify(parse, CutLine(buffer).value.line) == Unparsable
  }

  lemma {:induction false} StripCRNoNewline(l: string)
    requires NoNewline(l)
    ensures NoNewline(StripCR(l))
  {
    if EndsWith(l, "\r") {
      assert forall i :: 0 <= i < |l| - 1 ==> l[..|l| - 1][i] == l[i];
    }
  }

  /**
   On an unparsable line the loop puts it back, without its `\r`, and stops: the turn is
   unchanged and the same line is again first in the buffer.
   */
  lemma {:induction false} DrainStuck(parse: PayloadParser, r: Reader)
    requires Stuck(parse, r.buffer)
    ensures var c := CutLine(r.buffer).value;
      Drain(parse, r) == Reader(StripCR(c.line) + "\n" + c.rest, r.turn)
    ensures Stuck(parse, Drain(parse, r).buffer)
  {
    var c := CutLine(r.buffer).value;
    StripCRNoNewline(c.line);
    CutLineOf(StripCR(c.line), c.rest);
    ClassifyStripCR(parse, c.line);
  }

  /**
   Starvation: once the buffer starts with an unparsable line, no later read changes the
   accumulated text or the transcript, whatever text arrives after it.
   */
  lemma {:induction false} FeedAllStuck(parse: PayloadParser, r: Reader, chunks: seq<string>)
    requires Stuck(parse, r.buffer)
    decreases |chunks|
    ensures FeedAll(parse, r, chunks).turn == r.turn
    ensures Stuck(parse, FeedAll(parse, r, chunks).buffer)
  {
    if chunks != [] {
      var init := chunks[..|chunks| - 1];
      FeedAllStuck(parse, r, init);
      var r1 := FeedAll(parse, r, init);
      var b := r1.buffer + chunks[|chunks| - 1];
      CutLineAppend(r1.buffer, chunks[|chunks| - 1]);
      DrainStuck(parse, Reader(b, r1.turn));
    }
  }
}

=== FILE: pipeline.dfy ===
/**
 The two halves together: the function's normalised stream, however the
 network re-chunks it, read by the widget. The widget's `JSON.parse` is only
 assumed to read back the content objects the function writes; the reference
 decoder of the wire module shows that assumption can be met.
 */
module Pipeline {
  import opened Wrappers
  import opened Text
  import opened Wire
  import opened Transcoder
  import opened Transcript
  import opened Consumer

  /** The widget's parser reads every content object the function writes back to its text. */
  ghost predicate DecodesContent(cparse: PayloadParser) {
    forall t :: cparse(ContentJson(t)) == Parsed(Some(t))
  }

  /** A payload parser that only understands the content object shape. */
  function ReferenceParse(js: string): Payload {
    match DecodeContentJson(js)
    case Some(t) => Parsed(Some(t))
    case None => ParseError
  }

  /** The round-trip assumption is satisfiable: the reference parser meets it. */
  lemma ReferenceParseDecodes()
    ensures DecodesContent(ReferenceParse)
  {
    forall t
      ensures ReferenceParse(ContentJson(t)) == Parsed(Some(t))
    {
      DecodeContentJsonRoundTrip(t);
    }
  }

  lemma {:induction false} ContentLineNotDone(t: string)
    ensures ContentJson(t) != DonePayload
  {
    assert ContentJson(t)[0] == '{';
  }

  /** The widget reads a content line back as exactly the delta it carries. */
  lemma {:induction false} ClassifyContentLine(cparse: PayloadParser, t: string)
    requires DecodesContent(cparse) && t != ""
    ensures Classify(cparse, EventLine(Content(t))) == Delta(t)
  {
    var line := EventLine(Content(t));
    var j := ContentJson(t);
    assert line[|line| - 1] == '}';
    assert StripCR(line) == line;
    assert line[..|DataPrefix|] == DataPrefix;
    assert line[|DataPrefix|..] == j;
    ContentJsonTrimmed(t);
    ContentLineNotDone(t);
    DataLineKept(line);
    assert cparse(j) == Parsed(Some(t));
  }

  /** The widget reads the end-of-stream line as the sentinel. */
  lemma {:induction false} ClassifyDoneLine(cparse: PayloadParser)
    ensures Classify(cparse, EventLine(Done)) == Stop
  {
    var line := EventLine(Done);
    assert line == DataPrefix + DonePayload;
    assert line[|line| - 1] == ']';
    assert StripCR(line) == line;
    assert line[|DataPrefix|..] == DonePayload;
    TrimMeaning(DonePayload);
    DataLineKept(line);
  }

  lemma {:induction false} ClassifyBlank(cparse: PayloadParser)
    ensures Classify(cparse, "") == Ignore
  {
    assert StripCR("") == "";
    TrimMeaning("");
  }

  predicate ContentOnly(es: seq<OutEvent>) {
    forall i :: 0 <= i < |es| ==> es[i].Content? && es[i].text != ""
  }

  lemma {:induction false} DeltaTextsAppend(cparse: PayloadParser, a: seq<string>, b: seq<string>)
    decreases |a|
    ensures DeltaTexts(cparse, a + b) == DeltaTexts(cparse, a) + DeltaTexts(cparse, b)
  {
    if a == [] {
      assert a + b == b;
    } else {
      assert (a + b)[1..] == a[1..] + b;
      DeltaTextsAppend(cparse, a[1..], b);
      AppendAssoc(HeadText(cparse, a[0]), DeltaTexts(cparse, a[1..]), DeltaTexts(cparse, b));
    }
  }

  lemma {:induction false} EventPair(cparse: PayloadParser, e: OutEvent)
    requires DecodesContent(cparse) && e.Content? && e.text != ""
    ensures WireLines([e]) == [EventLine(e), ""]
    ensures Passes(cparse, EventLine(e)) && Passes(cparse, "")
    ensures DeltaTexts(cparse, [EventLine(e), ""]) == e.text
  {
    assert [e][1..] == [];
    ClassifyContentLine(cparse, e.text);
    ClassifyBlank(cparse);
    assert [EventLine(e), ""][1..] == [""];
    assert [""][1..] == [];
  }

  lemma {:induction false} PassesAppend(cparse: PayloadParser, a: seq<string>, b: seq<string>)
    requires forall i :: 0 <= i < |a| ==> Passes(cparse, a[i])
    requires forall i :: 0 <= i < |b| ==> Passes(cparse, b[i])
    ensures forall i :: 0 <= i < |a + b| ==> Passes(cparse, (a + b)[i])
  {
    assert forall i :: 0 <= i < |a| ==> (a + b)[i] == a[i];
    assert forall i :: |a| <= i < |a + b| ==> (a + b)[i] == b[i - |a|];
  }

  /** The widget reads the lines of a run of content events as passing lines carrying exactly their texts. */
  lemma {:induction false} ReadContentLines(cparse: PayloadParser, es: seq<OutEvent>)
    requires DecodesContent(cparse) && ContentOnly(es)
    decreases |es|
    ensures var ls := WireLines(es); forall i :: 0 <= i < |ls| ==> Passes(cparse, ls[i])
    ensures DeltaTexts(cparse, WireLines(es)) == ContentText(es)
  {
    if es != [] {
      var head := [EventLine(es[0]), ""];
      var tl := WireLines(es[1..]);
      assert ContentOnly(es[1..]) by {
        assert forall i :: 0 <= i < |es| - 1 ==> es[1..][i] == es[i + 1];
      }
      ReadContentLines(cparse, es[1..]);
      EventPair(cparse, es[0]);
      assert WireLines(es) == head + tl;
      assert forall i :: 0 <= i < |head| ==> Passes(cparse, head[i]);
      PassesAppend(cparse, head, tl);
      DeltaTextsAppend(cparse, head, tl);
    }
  }

  /** The lines of the final end-of-stream event, if there is one, leave the turn alone. */
  lemma {:induction false} TailLinesInert(cparse: PayloadParser, tail: seq<OutEvent>)
    requires tail == [] || tail == [Done]
    ensures var ls := WireLines(tail); forall i :: 0 <= i < |ls| ==> Inert(cparse, ls[i])
  {
    if tail != [] {
      assert tail[1..] == [];
      assert WireLines(tail) == [EventLine(Done), ""];
      ClassifyDoneLine(cparse);
      ClassifyBlank(cparse);
    }
  }

  predicate NonEmptyContent(es: seq<OutEvent>) {
    forall i :: 0 <= i < |es| ==> es[i].Content? ==> es[i].text != ""
  }

  lemma {:induction false} NonEmptyContentAppend(a: seq<OutEvent>, b: seq<OutEvent>)
    requires NonEmptyContent(a) && NonEmptyContent(b)
    ensures NonEmptyContent(a + b)
  {
    assert forall i :: |a| <= i < |a + b| ==> (a + b)[i] == b[i - |a|];
  }

  /** Every content event the function emits carries non-empty text. */
  lemma {:induction false} EmittedContentNonEmpty(sparse: UpstreamParser, ls: seq<string>)
    decreases |ls|
    ensures NonEmptyContent(TransformLines(sparse, ls))
  {
    if ls != [] {
      EmittedContentNonEmpty(sparse, ls[1..]);
      var o := TransformLine(sparse, ls[0]);
      assert NonEmptyContent(Emit(o)) by {
        if o.Some? {
          assert Emit(o) == [o.value];
        }
      }
      NonEmptyContentAppend(Emit(o), TransformLines(sparse, ls[1..]));
    }
  }

  /** A stream whose only end-of-stream event, if any, is its last. */
  predicate StopsLast(es: seq<OutEvent>) {
    forall i :: 0 <= i < |es| - 1 ==> es[i].Content?
  }

  lemma {:induction false} SplitAtStop(es: seq<OutEvent>) returns (body: seq<OutEvent>, tail: seq<OutEvent>)
    requires StopsLast(es) && NonEmptyContent(es)
    ensures es == body + tail && ContentOnly(body) && (tail == [] || tail == [Done])
  {
    if es != [] && es[|es| - 1].Done? {
      body, tail := es[..|es| - 1], [Done];
      assert forall i :: 0 <= i < |body| ==> body[i] == es[i];
    } else {
      body, tail := es, [];
    }
  }

  /** The function's side: with aligned chunks its events carry the provider's delta text, in order. */
  lemma {:induction false} ServerSide(sparse: UpstreamParser, upstream: seq<string>)
    requires forall i :: 0 <= i < |upstream| - 1 ==> EndsWith(upstream[i], "\n")
    ensures var es := ServerOut(sparse, upstream);
      && ContentText(es) == UpstreamText(sparse, Split(Concat(upstream)))
      && NonEmptyContent(es)
  {
    ServerOutAligned(sparse, upstream);
    ContentTextMatchesUpstream(sparse, Split(Concat(upstream)));
    EmittedContentNonEmpty(sparse, Split(Concat(upstream)));
  }

  lemma {:induction false} ContentTextOfTail(tail: seq<OutEvent>)
    requires tail == [] || tail == [Done]
    ensures ContentText(tail) == ""
  {
    if tail != [] {
      assert tail[1..] == [];
    }
  }

  lemma {:induction false} ReceivedLines(es: seq<OutEvent>, received: seq<string>, body: seq<OutEvent>, tail: seq<OutEvent>)
    requires Concat(received) == WireText(es) && es == body + tail
    ensures Lines("" + Concat(received)).lines == WireLines(body) + WireLines(tail)
  {
    WireTextAppend(body, tail);
    WireFraming(es);
    assert "" + Concat(received) == WireText(es);
  }

  /**
   The widget's side: however the function's stream is re-chunked, reading it ends the
   turn with the events' content text, published as the transcript's tail.
   */
  lemma {:induction false} ClientSide(cparse: PayloadParser, es: seq<OutEvent>, received: seq<string>, msgs: seq<Message>)
    requires StopsLast(es) && NonEmptyContent(es)
    requires DecodesContent(cparse)
    requires Concat(received) == WireText(es)
    ensures var text := ContentText(es);
      FeedAll(cparse, Reader("", Turn("", msgs)), received).turn
        == Turn(text, if text == "" then msgs else UpsertAssistant(msgs, text))
  {
    var body, tail := SplitAtStop(es);
    var a := WireLines(body);
    var b := WireLines(tail);
    var r0 := Reader("", Turn("", msgs));
    ReceivedLines(es, received, body, tail);
    assert Lines(r0.buffer + Concat(received)).lines == a + b;
    ReadContentLines(cparse, body);
    TailLinesInert(cparse, tail);
    FeedAllSettled(cparse, r0, received, a, b);
    AccumulateShape(cparse, r0.turn, a);
    ContentTextAppend(body, tail);
    ContentTextOfTail(tail);
    assert ContentText(es) == ContentText(body);
    assert "" + ContentText(body) == ContentText(body);
  }

  /**
   Chunking matters once a `[DONE]` is followed by more events, which is why `EndToEnd`
   needs the stop to be last: read at once, the sentinel ends the inner loop with the next
   event still buffered; cut after the sentinel's event, the second read reaches it.
   */
  lemma {:induction false} EarlyStopChunkingMatters(cparse: PayloadParser, t: Turn, x: string)
    requires DecodesContent(cparse) && x != ""
    ensures FeedAll(cparse, Reader("", t), [Render(Done) + Render(Content(x))]) == Reader("\n" + Render(Content(x)), t)
    ensures FeedAll(cparse, Reader("", t), [Render(Done), Render(Content(x))]) == Reader("", Absorb(t, x))
    ensures Absorb(t, x) != t
  {
    var done := EventLine(Done);
    var content := EventLine(Content(x));
    EventLineNoNewline(Done);
    EventLineNoNewline(Content(x));
    ClassifyDoneLine(cparse);
    ClassifyContentLine(cparse, x);
    ClassifyBlank(cparse);
    StopThenDeltaOneRead(cparse, t, done, content);
    StopThenDeltaTwoReads(cparse, t, done, content, x);
    RenderLine(Done);
    RenderLine(Content(x));
  }

  lemma {:induction false} RenderLine(e: OutEvent)
    ensures Render(e) == EventLine(e) + "\n\n"
  {
  }

  lemma {:induction false} FeedAllOne(cparse: PayloadParser, r: Reader, a: string)
    ensures FeedAll(cparse, r, [a]) == Feed(cparse, r, a)
  {
    assert [a][..0] == [];
  }

  lemma {:induction false} FeedAllTwo(cparse: PayloadParser, r: Reader, a: string, b: string)
    ensures FeedAll(cparse, r, [a, b]) == Feed(cparse, Feed(cparse, r, a), b)
  {
    assert [a, b][..1] == [a];
    FeedAllOne(cparse, r, a);
  }

  /** One read of a stop line and a delta line, each followed by a blank line. */
  lemma {:induction false} StopThenDeltaOneRead(cparse: PayloadParser, t: Turn, stop: string, line: string)
    requires NoNewline(stop) && Classify(cparse, stop) == Stop
    ensures FeedAll(cparse, Reader("", t), [(stop + "\n\n") + (line + "\n\n")]) == Reader("\n" + (line + "\n\n"), t)
  {
    var whole := (stop + "\n\n") + (line + "\n\n");
    var rest := "\n" + (line + "\n\n");
    assert "" + whole == whole == stop + "\n" + rest;
    CutLineOf(stop, rest);
    DrainCut(cparse, Reader(whole, t), stop, rest);
    FeedAllOne(cparse, Reader("", t), whole);
  }

  /** The same text in two reads, cut after the stop line's blank line. */
  lemma {:induction false} StopThenDeltaTwoReads(cparse: PayloadParser, t: Turn, stop: string, line: string, x: string)
    requires NoNewline(stop) && Classify(cparse, stop) == Stop
    requires NoNewline(line) && Classify(cparse, line) == Delta(x) && Classify(cparse, "") == Ignore
    ensures FeedAll(cparse, Reader("", t), [stop + "\n\n", line + "\n\n"]) == Reader("", Absorb(t, x))
  {
    var first := stop + "\n\n";
    var second := line + "\n\n";
    FeedAllTwo(cparse, Reader("", t), first, second);
    var r1 := Feed(cparse, Reader("", t), first);
    StopRead(cparse, t, stop);
    DrainBlankDeltaBlank(cparse, t, line, x);
  }

  /** A read of a stop line and a blank line stops on the first, leaving the blank line's `\n`. */
  lemma {:induction false} StopRead(cparse: PayloadParser, t: Turn, stop: string)
    requires NoNewline(stop) && Classify(cparse, stop) == Stop
    ensures Feed(cparse, Reader("", t), stop + "\n\n") == Reader("\n", t)
  {
    var first := stop + "\n\n";
    assert "" + first == first == stop + "\n" + "\n";
    CutLineOf(stop, "\n");
    DrainCut(cparse, Reader(first, t), stop, "\n");
  }

  /** A buffer of a blank line, a delta line and a blank line drains to the delta's effect. */
  lemma {:induction false} DrainBlankDeltaBlank(cparse: PayloadParser, t: Turn, line: string, x: string)
    requires NoNewline(line) && Classify(cparse, line) == Delta(x) && Classify(cparse, "") == Ignore
    ensures Drain(cparse, Reader("\n" + (line + "\n\n"), t)) == Reader("", Absorb(t, x))
  {
    var b := "\n" + (line + "\n\n");
    var c := line + "\n" + "\n";
    assert b == "" + "\n" + c;
    CutLineOf("", c);
    DrainCut(cparse, Reader(b, t), "", c);
    CutLineOf(line, "\n");
    DrainCut(cparse, Reader(c, t), line, "\n");
    var t1 := Absorb(t, x);
    assert "\n" == "" + "\n" + "";
    CutLineOf("", "");
    DrainCut(cparse, Reader("\n", t1), "", "");
    assert CutLine("") == None;
  }

  /**
   End to end: when every provider chunk but the last ends at a line boundary, the stream
   stops only at its end, and the widget's parser reads the content objects back, the
   widget ends the turn with exactly the provider's delta text, in order, published as
   the transcript's tail, however the network re-chunked the function's output.
   */
  lemma {:induction false} EndToEnd(sparse: UpstreamParser, cparse: PayloadParser, upstream: seq<string>, received: seq<string>, msgs: seq<Message>)
    requires forall i :: 0 <= i < |upstream| - 1 ==> EndsWith(upstream[i], "\n")
    requires StopsLast(ServerOut(sparse, upstream))
    requires DecodesContent(cparse)
    requires Concat(received) == WireText(ServerOut(sparse, upstream))
    ensures var text := UpstreamText(sparse, Split(Concat(upstream)));
      FeedAll(cparse, Reader("", Turn("", msgs)), received).turn
        == Turn(text, if text == "" then msgs else UpsertAssistant(msgs, text))
  {
    ServerSide(sparse, upstream);
    ClientSide(cparse, ServerOut(sparse, upstream), received, msgs);
  }
}

=== FILE: text.dfy ===
/**
 Text primitives used by both halves of the streaming pipeline: prefixes, the
 JavaScript `indexOf`/`split`/`trim` operations on strings, newline framing of a
 text buffer into complete lines plus an unterminated remainder, ASCII lowering
 and substring search.
 */
module Text {
  import opened Wrappers

  predicate StartsWith(s: string, prefix: string) {
    |prefix| <= |s| && s[..|prefix|] == prefix
  }

  predicate EndsWith(s: string, suffix: string) {
    |suffix| <= |s| && s[|s| - |suffix|..] == suffix
  }

  lemma {:induction false} StartsWithShorter(s: string, p: string, x: string)
    requires StartsWith(s, p + x)
    ensures StartsWith(s, p)
  {
    assert s[..|p|] == (s[..|p + x|])[..|p|];
  }

  lemma {:induction false} StartsWithTrans(a: string, b: string, c: string)
    requires StartsWith(a, b) && StartsWith(b, c)
    ensures StartsWith(a, c)
  {
    assert a[..|c|] == (a[..|b|])[..|c|];
  }

  predicate NoNewline(s: string) {
    '\n' !in s
  }

  predicate AllNoNewline(ls: seq<string>) {
    forall i :: 0 <= i < |ls| ==> NoNewline(ls[i])
  }

  lemma {:induction false} AppendAssoc<T>(x: seq<T>, y: seq<T>, z: seq<T>)
    ensures x + (y + z) == (x + y) + z
  {
  }

  lemma {:induction false} ConsSlice<T>(s: seq<T>)
    requires |s| > 0
    ensures s == [s[0]] + s[1..]
  {
  }

  /** `s.indexOf(c)`: the position of the first `c` in `s`, or -1 when there is none. */
  function IndexOf(s: string, c: char): (r: int)
    ensures -1 <= r < |s|
    ensures r == -1 <==> c !in s
    ensures 0 <= r ==> s[r] == c && c !in s[..r]
  {
    if |s| == 0 then -1
    else if s[0] == c then 0
    else
      var k := IndexOf(s[1..], c);
      if k == -1 then -1
      else
        assert s[1..][..k] == s[1..k + 1];
        k + 1
  }

  /** A buffer cut at its first newline: the text before it and the text after it. */
  datatype Cut = Cut(line: string, rest: string)

  /** Splits `s` at its first `\n`, or None when `s` holds no complete line. */
  function CutLine(s: string): (r: Option<Cut>)
    ensures r.None? <==> '\n' !in s
    ensures r.Some? ==> s == r.value.line + "\n" + r.value.rest
    ensures r.Some? ==> NoNewline(r.value.line) && |r.value.rest| < |s|
  {
    if s == [] then None
    else if s[0] == '\n' then
      ConsSlice(s);
      Some(Cut([], s[1..]))
    else
      match CutLine(s[1..])
      case None => None
      case Some(c) =>
        ConsSlice(s);
        AppendAssoc([s[0]], c.line + "\n", c.rest);
        AppendAssoc([s[0]], c.line, "\n");
        Some(Cut([s[0]] + c.line, c.rest))
  }

  /** The cut is where `indexOf` finds the first newline: the slices before and after it. */
  lemma {:induction false} CutLineAtIndexOf(s: string)
    ensures var i := IndexOf(s, '\n');
      CutLine(s) == if i == -1 then None else Some(Cut(s[..i], s[i + 1..]))
  {
    if s != [] && s[0] != '\n' {
      CutLineAtIndexOf(s[1..]);
      var k := IndexOf(s[1..], '\n');
      if k == -1 {
        assert CutLine(s[1..]) == None;
      } else {
        CutLineShift(s, k);
      }
    }
  }

  /** One step of the cut past a first character that is not a newline. */
  lemma {:induction false} CutLineShift(s: string, k: nat)
    requires s != [] && s[0] != '\n' && k < |s| - 1
    requires CutLine(s[1..]) == Some(Cut(s[1..][..k], s[1..][k + 1..]))
    ensures CutLine(s) == Some(Cut(s[..k + 1], s[k + 2..]))
  {
    assert CutLine(s) == Some(Cut([s[0]] + s[1..][..k], s[1..][k + 1..]));
    ShiftSlices(s, k);
  }

  lemma {:induction false} ShiftSlices<T>(s: seq<T>, k: nat)
    requires k < |s| - 1
    ensures [s[0]] + s[1..][..k] == s[..k + 1] && s[1..][k + 1..] == s[k + 2..]
  {
    assert s[1..][..k] == s[1..k + 1];
  }

  /** Every line followed by its `\n` terminator. */
  function Joined(ls: seq<string>): string {
    if ls == [] then "" else ls[0] + "\n" + Joined(ls[1..])
  }

  lemma {:induction false} JoinedCons(l: string, ls: seq<string>)
    ensures Joined([l] + ls) == l + "\n" + Joined(ls)
  {
    assert ([l] + ls)[1..] == ls;
  }

  lemma {:induction false} JoinedSingle(l: string)
    ensures Joined([l]) == l + "\n"
  {
    assert [l][1..] == [];
  }

  lemma {:induction false} JoinedAppend(a: seq<string>, b: seq<string>)
    ensures Joined(a + b) == Joined(a) + Joined(b)
  {
    if a == [] {
      assert a + b == b;
    } else {
      assert (a + b)[1..] == a[1..] + b;
      JoinedAppend(a[1..], b);
      AppendAssoc(a[0] + "\n", Joined(a[1..]), Joined(b));
    }
  }

  lemma {:induction false} AllNoNewlineAppend(a: seq<string>, b: seq<string>)
    requires AllNoNewline(a) && AllNoNewline(b)
    ensures AllNoNewline(a + b)
  {
    assert forall i :: |a| <= i < |a + b| ==> (a + b)[i] == b[i - |a|];
  }

  /** A text split into its complete (newline-terminated) lines and the unterminated remainder. */
  datatype Framing = Framing(lines: seq<string>, rest: string)

  /** Repeatedly cuts the buffer at its first newline until none is left. */
  function Lines(s: string): (f: Framing)
    decreases |s|
    ensures AllNoNewline(f.lines) && NoNewline(f.rest)
  {
    var c := CutLine(s);
    if c.None? then Framing([], s)
    else
      var f := Lines(c.value.rest);
      AllNoNewlineAppend([c.value.line], f.lines);
      Framing([c.value.line] + f.lines, f.rest)
  }

  /** Framing loses nothing: the lines with their terminators, then the remainder, give back the text. */
  lemma {:induction false} LinesJoined(s: string)
    decreases |s|
    ensures s == Joined(Lines(s).lines) + Lines(s).rest
  {
    var c := CutLine(s);
    if c.Some? {
      LinesJoined(c.value.rest);
      var f := Lines(c.value.rest);
      JoinedCons(c.value.line, f.lines);
      AppendAssoc(c.value.line + "\n", Joined(f.lines), f.rest);
    }
  }

  /** Cutting a buffer that starts with a newline-free line and `\n` yields exactly that line. */
  lemma {:induction false} CutLineOf(line: string, rest: string)
    requires NoNewline(line)
    ensures CutLine(line + "\n" + rest) == Some(Cut(line, rest))
  {
    var s := line + "\n" + rest;
    if line == [] {
      assert s == ['\n'] + rest;
      assert s[1..] == rest;
    } else {
      ConsSlice(line);
      AppendAssoc([line[0]], line[1..], "\n");
      AppendAssoc([line[0]], line[1..] + "\n", rest);
      assert s[1..] == line[1..] + "\n" + rest;
      CutLineOf(line[1..], rest);
    }
  }

  /** Framing is unique: newline-free lines joined with their terminators frame back to themselves. */
  lemma {:induction false} LinesOfJoined(ls: seq<string>, rest: string)
    requires AllNoNewline(ls) && NoNewline(rest)
    ensures Lines(Joined(ls) + rest) == Framing(ls, rest)
  {
    if ls == [] {
      assert Joined(ls) + rest == rest;
    } else {
      AppendAssoc(ls[0] + "\n", Joined(ls[1..]), rest);
      CutLineOf(ls[0], Joined(ls[1..]) + rest);
      LinesOfJoined(ls[1..], rest);
      ConsSlice(ls);
    }
  }

  lemma {:induction false} JoinedRegroup(a: string, b: string, fa: Framing, fb: Framing)
    requires a == Joined(fa.lines) + fa.rest
    requires fa.rest + b == Joined(fb.lines) + fb.rest
    ensures a + b == Joined(fa.lines + fb.lines) + fb.rest
  {
    JoinedAppend(fa.lines, fb.lines);
    AppendAssoc(Joined(fa.lines), fa.rest, b);
    AppendAssoc(Joined(fa.lines), Joined(fb.lines), fb.rest);
  }

  /** Appending text after a buffer keeps its complete lines and re-frames only the remainder. */
  lemma {:induction false} LinesAppend(a: string, b: string)
    ensures var fa := Lines(a); var fb := Lines(fa.rest + b);
      Lines(a + b) == Framing(fa.lines + fb.lines, fb.rest)
  {
    var fa := Lines(a);
    var fb := Lines(fa.rest + b);
    LinesJoined(a);
    LinesJoined(fa.rest + b);
    JoinedRegroup(a, b, fa, fb);
    AllNoNewlineAppend(fa.lines, fb.lines);
    LinesOfJoined(fa.lines + fb.lines, fb.rest);
  }

  /** Appending to a buffer that already holds a complete line leaves its first line unchanged. */
  lemma {:induction false} CutLineAppend(s: string, t: string)
    requires '\n' in s
    ensures CutLine(s + t) == Some(Cut(CutLine(s).value.line, CutLine(s).value.rest + t))
  {
    var c := CutLine(s).value;
    AppendAssoc(c.line + "\n", c.rest, t);
    CutLineOf(c.line, c.rest + t);
  }

  /** `s.split("\n")`: every newline-free piece between separators, in order, always at least one. */
  function Split(s: string): (r: seq<string>)
    ensures |r| >= 1 && AllNoNewline(r)
  {
    var f := Lines(s);
    AllNoNewlineAppend(f.lines, [f.rest]);
    f.lines + [f.rest]
  }

  /** Joining the pieces of a split with `\n` separators gives back the text. */
  lemma {:induction false} SplitJoined(s: string)
    ensures var r := Split(s); s == Joined(r[..|r| - 1]) + r[|r| - 1]
  {
    var f := Lines(s);
    LinesJoined(s);
    assert (f.lines + [f.rest])[..|f.lines|] == f.lines;
  }

  /** Left fold concatenation of a sequence of chunks. */
  function Concat(cs: seq<string>): string {
    if cs == [] then "" else Concat(cs[..|cs| - 1]) + cs[|cs| - 1]
  }

  /** Whitespace and line terminators as ECMAScript's `String.prototype.trim` removes them. */
  predicate IsJsWhitespace(c: char) {
    || c == '\t' || c == '\n' || c == '\U{000B}' || c == '\U{000C}' || c == '\r' || c == ' '
    || c == '\U{00A0}' || c == '\U{1680}' || ('\U{2000}' <= c <= '\U{200A}')
    || c == '\U{2028}' || c == '\U{2029}' || c == '\U{202F}' || c == '\U{205F}'
    || c == '\U{3000}' || c == '\U{FEFF}'
  }

  predicate AllWhitespace(s: string) {
    forall k :: 0 <= k < |s| ==> IsJsWhitespace(s[k])
  }

  /** Drops leading whitespace. */
  function TrimStart(s: string): string {
    if |s| > 0 && IsJsWhitespace(s[0]) then TrimStart(s[1..]) else s
  }

  /** Drops trailing whitespace. */
  function TrimEnd(s: string): string {
    if |s| > 0 && IsJsWhitespace(s[|s| - 1]) then TrimEnd(s[..|s| - 1]) else s
  }

  /** `s.trim()`. */
  function Trim(s: string): string {
    TrimEnd(TrimStart(s))
  }

  /** What TrimStart leaves is a suffix, empty or starting with non-whitespace, after only whitespace. */
  lemma {:induction false} TrimStartShape(s: string)
    ensures var r := TrimStart(s);
      && |r| <= |s| && r == s[|s| - |r|..]
      && AllWhitespace(s[..|s| - |r|])
      && (r == [] || !IsJsWhitespace(r[0]))
  {
    if |s| > 0 && IsJsWhitespace(s[0]) {
      TrimStartShape(s[1..]);
      var r := TrimStart(s[1..]);
      assert s[1..][..|s| - 1 - |r|] == s[1..|s| - |r|];
      assert s[..|s| - |r|] == [s[0]] + s[1..|s| - |r|];
      AllWhitespaceAppend([s[0]], s[1..|s| - |r|]);
    }
  }

  /** What TrimEnd leaves is a prefix, empty or ending with non-whitespace, before only whitespace. */
  lemma {:induction false} TrimEndShape(s: string)
    ensures var r := TrimEnd(s);
      && |r| <= |s| && r == s[..|r|]
      && AllWhitespace(s[|r|..])
      && (r == [] || !IsJsWhitespace(r[|r| - 1]))
  {
    if |s| > 0 && IsJsWhitespace(s[|s| - 1]) {
      TrimEndShape(s[..|s| - 1]);
      var r := TrimEnd(s[..|s| - 1]);
      assert s[..|s| - 1][..|r|] == s[..|r|];
      assert s[|r|..] == s[..|s| - 1][|r|..] + [s[|s| - 1]];
      AllWhitespaceAppend(s[..|s| - 1][|r|..], [s[|s| - 1]]);
    }
  }

  lemma {:induction false} AllWhitespaceAppend(x: string, y: string)
    requires AllWhitespace(x) && AllWhitespace(y)
    ensures AllWhitespace(x + y)
  {
    assert forall k :: |x| <= k < |x + y| ==> (x + y)[k] == y[k - |x|];
  }

  lemma {:induction false} AllWhitespaceSuffix(s: string, n: nat)
    requires AllWhitespace(s) && n <= |s|
    ensures AllWhitespace(s[n..])
  {
    assert forall k :: 0 <= k < |s| - n ==> s[n..][k] == s[n + k];
  }

  /**
   The trim is empty exactly when the text is all whitespace; otherwise it neither
   starts nor ends with whitespace, and a text that already does not is kept whole.
   */
  lemma {:induction false} TrimMeaning(s: string)
    ensures var r := Trim(s);
      && (r == [] <==> AllWhitespace(s))
      && (r == [] || (!IsJsWhitespace(r[0]) && !IsJsWhitespace(r[|r| - 1])))
      && (|s| > 0 && !IsJsWhitespace(s[0]) && !IsJsWhitespace(s[|s| - 1]) ==> r == s)
  {
    var a := TrimStart(s);
    var r := TrimEnd(a);
    TrimStartShape(s);
    TrimEndShape(a);
    var n := |s| - |a|;
    if r == [] {
      assert a[0..] == a;
      assert s == s[..n] + a;
      AllWhitespaceAppend(s[..n], a);
    }
    if AllWhitespace(s) {
      AllWhitespaceSuffix(s, n);
      assert a == [];
    }
    if r != [] {
      assert r[0] == a[0];
    }
  }

  lemma {:induction false} TrimStartSnoc(s: string, c: char)
    requires IsJsWhitespace(c)
    ensures TrimStart(s + [c]) == if TrimStart(s) == [] then [] else TrimStart(s) + [c]
  {
    if |s| > 0 && IsJsWhitespace(s[0]) {
      assert (s + [c])[1..] == s[1..] + [c];
      TrimStartSnoc(s[1..], c);
    } else if |s| == 0 {
      assert s + [c] == [c];
      assert [c][1..] == [];
    }
  }

  /** Trailing whitespace, such as a `\r`, never changes the trim. */
  lemma {:induction false} TrimSnocWhitespace(s: string, c: char)
    requires IsJsWhitespace(c)
    ensures Trim(s + [c]) == Trim(s)
  {
    TrimStartSnoc(s, c);
    var a := TrimStart(s);
    if a != [] {
      assert (a + [c])[..|a + [c]| - 1] == a;
    }
  }

  /** ASCII case folding: `A`..`Z` to `a`..`z`, every other character unchanged. */
  function LowerChar(c: char): char {
    if 'A' <= c <= 'Z' then (c as int - 'A' as int + 'a' as int) as char else c
  }

  function Lower(s: string): (r: string)
    ensures |r| == |s|
    ensures forall i :: 0 <= i < |r| ==> !('A' <= r[i] <= 'Z')
    ensures forall i :: 0 <= i < |s| && !('A' <= s[i] <= 'Z') ==> r[i] == s[i]
    ensures forall i :: 0 <= i < |s| && 'A' <= s[i] <= 'Z' ==> r[i] as int == s[i] as int + 32
  {
    seq(|s|, i requires 0 <= i < |s| => LowerChar(s[i]))
  }

  /** `k` occurs in `s` starting at position `i`. */
  predicate OccursAt(s: string, k: string, i: int) {
    0 <= i <= |s| - |k| && s[i..i + |k|] == k
  }

  /** `s.includes(k)`: some slice of `s` equals `k`. */
  function Contains(s: string, k: string): (r: bool)
    decreases |s|
    ensures r <==> exists i :: OccursAt(s, k, i)
  {
    if |k| > |s| then false
    else if s[..|k|] == k then
      assert OccursAt(s, k, 0);
      true
    else
      var r := Contains(s[1..], k);
      assert r ==> exists i :: OccursAt(s, k, i) by {
        if r {
          var i :| OccursAt(s[1..], k, i);
          assert s[1..][i..i + |k|] == s[i + 1..i + 1 + |k|];
          assert OccursAt(s, k, i + 1);
        }
      }
      assert (exists i :: OccursAt(s, k, i)) ==> r by {
        if exists i :: OccursAt(s, k, i) {
          var i :| OccursAt(s, k, i);
          assert i != 0;
          assert s[1..][i - 1..i - 1 + |k|] == s[i..i + |k|];
          assert OccursAt(s[1..], k, i - 1);
        }
      }
      r
  }
}

=== FILE: transcoder.dfy ===
/**
 The chat function's stream transform: each raw chunk of the provider's event
 stream is split on `\n`, and every `data: ` line is re-framed into the
 normalised wire format. The provider's JSON is read through a parser passed in
 as a parameter; no state is carried from one chunk to the next.
 */
module Transcoder {
  import opened Wrappers
  import opened Text
  import opened Wire

  /** What `JSON.parse` of a `data: ` payload reveals about the provider event. */
  datatype UpstreamEvent =
    | ContentBlockDelta(deltaText: Option<string>)  // `type` is "content_block_delta"; `delta.text` if present
    | MessageStop                                    // `type` is "message_stop"
    | OtherType                                      // any other parsed value
    | Malformed                                      // `JSON.parse` threw

  type UpstreamParser = string -> UpstreamEvent

  /** The text a line contributes as a content delta, "" when it contributes none. */
  function DeltaText(parse: UpstreamParser, line: string): string {
    if StartsWith(line, DataPrefix) && line[|DataPrefix|..] != DonePayload then
      match parse(line[|DataPrefix|..])
      case ContentBlockDelta(Some(t)) => t
      case _ => ""
    else ""
  }

  /** The per-line re-framing: at most one normalised event per provider line. */
  function TransformLine(parse: UpstreamParser, line: string): (r: Option<OutEvent>)
    ensures r.Some? ==> StartsWith(line, DataPrefix)
    ensures line == DataPrefix + DonePayload ==> r == Some(Done)
    ensures StartsWith(line, DataPrefix) && line[|DataPrefix|..] != DonePayload ==>
      (r == Some(Done) <==> parse(line[|DataPrefix|..]) == MessageStop)
    ensures r.Some? && r.value.Content? <==> DeltaText(parse, line) != ""
    ensures r.Some? && r.value.Content? ==> r.value.text == DeltaText(parse, line)
  {
    if StartsWith(line, DataPrefix) then
      var data := line[|DataPrefix|..];
      if data == DonePayload then Some(Done)
      else
        match parse(data)
        case ContentBlockDelta(Some(t)) => if t != "" then Some(Content(t)) else None
        case MessageStop => Some(Done)
        case _ => None
    else None
  }

  function Emit(o: Option<OutEvent>): seq<OutEvent> {
    match o
    case Some(e) => [e]
    case None => []
  }

  /** The events for a sequence of provider lines, in line order. */
  function TransformLines(parse: UpstreamParser, ls: seq<string>): (r: seq<OutEvent>)
    ensures |r| <= |ls|
  {
    if ls == [] then [] else Emit(TransformLine(parse, ls[0])) + TransformLines(parse, ls[1..])
  }

  /** One invocation of the stream transform on a decoded chunk. */
  function Transform(parse: UpstreamParser, chunk: string): (r: seq<OutEvent>)
    ensures |r| <= |Split(chunk)|
  {
    TransformLines(parse, Split(chunk))
  }

  /** Everything the transform emits for a sequence of provider chunks, chunk by chunk. */
  function ServerOut(parse: UpstreamParser, chunks: seq<string>): seq<OutEvent> {
    if chunks == [] then []
    else ServerOut(parse, chunks[..|chunks| - 1]) + Transform(parse, chunks[|chunks| - 1])
  }

  /** In-order concatenation: processing two runs of lines is processing each and concatenating. */
  lemma {:induction false} TransformLinesAppend(parse: UpstreamParser, a: seq<string>, b: seq<string>)
    ensures TransformLines(parse, a + b) == TransformLines(parse, a) + TransformLines(parse, b)
  {
    if a == [] {
      assert a + b == b;
    } else {
      assert (a + b)[1..] == a[1..] + b;
      TransformLinesAppend(parse, a[1..], b);
    }
  }

  /** Blank lines, comment lines and other fields emit nothing: only `data: ` lines can. */
  lemma {:induction false} NonDataLinesSilent(parse: UpstreamParser, ls: seq<string>)
    requires forall i :: 0 <= i < |ls| ==> !StartsWith(ls[i], DataPrefix)
    ensures TransformLines(parse, ls) == []
  {
    if ls != [] {
      NonDataLinesSilent(parse, ls[1..]);
    }
  }

  lemma {:induction false} EndsInNewlineFraming(a: string)
    requires EndsWith(a, "\n")
    ensures Lines(a).rest == ""
  {
    var f := Lines(a);
    LinesJoined(a);
    assert a[|a| - 1] == '\n';
  }

  lemma {:induction false} SplitAfterNewline(a: string, b: string)
    requires EndsWith(a, "\n")
    ensures Split(a) == Lines(a).lines + [""]
    ensures Split(a + b) == Lines(a).lines + Split(b)
  {
    EndsInNewlineFraming(a);
    SplitAppendFramed(a, b);
  }

  lemma {:induction false} SplitAppendFramed(a: string, b: string)
    requires Lines(a).rest == ""
    ensures Split(a + b) == Lines(a).lines + Split(b)
  {
    var fa := Lines(a);
    var fb := Lines(b);
    LinesAppend(a, b);
    assert fa.rest + b == b;
    var fab := Lines(a + b);
    assert fab.lines == fa.lines + fb.lines;
    assert fab.rest == fb.rest;
    AppendAssoc(fa.lines, fb.lines, [fb.rest]);
  }

  lemma {:induction false} SplitSingle(s: string)
    requires NoNewline(s)
    ensures Split(s) == [s]
  {
    LinesOfJoined([], s);
    assert Joined([]) + s == s;
  }

  lemma {:induction false} TransformSingle(parse: UpstreamParser, s: string)
    requires NoNewline(s)
    ensures Transform(parse, s) == Emit(TransformLine(parse, s))
  {
    SplitSingle(s);
    assert [s][1..] == [];
  }

  lemma {:induction false} TransformBlank(parse: UpstreamParser)
    ensures TransformLines(parse, [""]) == []
  {
    assert [""][1..] == [];
  }

  /** A chunk boundary that falls right after a `\n` (or before anything) does not change the output. */
  lemma {:induction false} TransformAligned(parse: UpstreamParser, a: string, b: string)
    requires a == "" || EndsWith(a, "\n")
    ensures Transform(parse, a + b) == Transform(parse, a) + Transform(parse, b)
  {
    if a == "" {
      assert a + b == b;
      TransformSingle(parse, "");
    } else {
      SplitAfterNewline(a, b);
      var la := Lines(a).lines;
      var sb := Split(b);
      assert Split(a + b) == la + sb;
      assert Split(a) == la + [""];
      var x := TransformLines(parse, la);
      var y := TransformLines(parse, sb);
      TransformLinesAppend(parse, la, sb);
      assert TransformLines(parse, la + sb) == x + y;
      TransformLinesAppend(parse, la, [""]);
      TransformBlank(parse);
      assert TransformLines(parse, la + [""]) == x + [];
      assert Transform(parse, a + b) == x + y;
      assert Transform(parse, a) == x;
    }
  }

  /** A whole `data: [DONE]` line in one chunk yields the end-of-stream event. */
  lemma {:induction false} DoneLineTransformed(parse: UpstreamParser)
    ensures Transform(parse, EventLine(Done)) == [Done]
  {
    EventLineNoNewline(Done);
    TransformSingle(parse, EventLine(Done));
  }

  /**
   A provider line cut in two by a chunk boundary is handled as two unrelated
   fragments: cutting `data: [DONE]` after `da` loses the sentinel entirely.
   */
  lemma {:induction false} SplitLineIsLost(parse: UpstreamParser)
    ensures var line := EventLine(Done);
      Transform(parse, line[..2]) + Transform(parse, line[2..]) == []
  {
    var line := EventLine(Done);
    assert line == "data: [DONE]";
    var x := line[..2];
    var y := line[2..];
    assert x == "da" && y == "ta: [DONE]";
    TransformSingle(parse, x);
    TransformSingle(parse, y);
    assert y[0] == 't';
  }

  /** When every chunk but the last ends with `\n`, the chunked output is the output of the whole text. */
  lemma {:induction false} ServerOutAligned(parse: UpstreamParser, chunks: seq<string>)
    requires forall i :: 0 <= i < |chunks| - 1 ==> EndsWith(chunks[i], "\n")
    ensures ServerOut(parse, chunks) == Transform(parse, Concat(chunks))
  {
    if chunks == [] {
      TransformSingle(parse, "");
    } else {
      var init := chunks[..|chunks| - 1];
      var last := chunks[|chunks| - 1];
      ServerOutAligned(parse, init);
      if init != [] {
        assert Concat(init) == Concat(init[..|init| - 1]) + init[|init| - 1];
        assert EndsWith(init[|init| - 1], "\n");
        assert EndsWith(Concat(init), "\n");
      } else {
        assert Concat(init) == "";
      }
      TransformAligned(parse, Concat(init), last);
    }
  }

  /** The concatenation, in order, of the content texts of a run of events. */
  function ContentText(es: seq<OutEvent>): string {
    if es == [] then ""
    else (if es[0].Content? then es[0].text else "") + ContentText(es[1..])
  }

  /** The concatenation, in order, of the non-empty delta texts of a run of provider lines. */
  function UpstreamText(parse: UpstreamParser, ls: seq<string>): string {
    if ls == [] then "" else DeltaText(parse, ls[0]) + UpstreamText(parse, ls[1..])
  }

  /** No delta text is lost or duplicated: the emitted content is exactly the provider's delta text. */
  lemma {:induction false} ContentTextMatchesUpstream(parse: UpstreamParser, ls: seq<string>)
    ensures ContentText(TransformLines(parse, ls)) == UpstreamText(parse, ls)
  {
    if ls != [] {
      ContentTextMatchesUpstream(parse, ls[1..]);
      var head := Emit(TransformLine(parse, ls[0]));
      ContentTextAppend(head, TransformLines(parse, ls[1..]));
      assert ContentText(head) == DeltaText(parse, ls[0]) by {
        if head != [] {
          assert head[1..] == [];
        }
      }
    }
  }

  lemma {:induction false} ContentTextAppend(a: seq<OutEvent>, b: seq<OutEvent>)
    ensures ContentText(a + b) == ContentText(a) + ContentText(b)
  {
    if a == [] {
      assert a + b == b;
    } else {
      assert (a + b)[1..] == a[1..] + b;
      ContentTextAppend(a[1..], b);
    }
  }

  /** The number of content events equals the number of provider lines carrying non-empty delta text. */
  function CountContent(es: seq<OutEvent>): nat {
    if es == [] then 0 else (if es[0].Content? then 1 else 0) + CountContent(es[1..])
  }

  function CountDeltaLines(parse: UpstreamParser, ls: seq<string>): nat {
    if ls == [] then 0 else (if DeltaText(parse, ls[0]) != "" then 1 else 0) + CountDeltaLines(parse, ls[1..])
  }

  lemma {:induction false} ContentCountMatchesUpstream(parse: UpstreamParser, ls: seq<string>)
    ensures CountContent(TransformLines(parse, ls)) == CountDeltaLines(parse, ls)
  {
    if ls != [] {
      ContentCountMatchesUpstream(parse, ls[1..]);
      var head := Emit(TransformLine(parse, ls[0]));
      CountContentAppend(head, TransformLines(parse, ls[1..]));
      assert CountContent(head) == (if DeltaText(parse, ls[0]) != "" then 1 else 0) by {
        if head != [] {
          assert head[1..] == [];
        }
      }
    }
  }

  lemma {:induction false} CountContentAppend(a: seq<OutEvent>, b: seq<OutEvent>)
    ensures CountContent(a + b) == CountContent(a) + CountContent(b)
  {
    if a == [] {
      assert a + b == b;
    } else {
      assert (a + b)[1..] == a[1..] + b;
      CountContentAppend(a[1..], b);
    }
  }
}

=== FILE: transcript.dfy ===
/**
 The chat transcript as the widget holds it, and the pure list updaters the
 widget hands to its state setter: the streaming tail update, the contact-form
 marker, and the pricing-intent keyword heuristic that decides whether to mark.
 */
module Transcript {
  import opened Text

  datatype Role = User | Assistant

  /** One chat turn; `showContactForm` false stands for the field being absent. */
  datatype Message = Message(role: Role, content: string, showContactForm: bool)

  predicate EndsWithAssistant(msgs: seq<Message>) {
    |msgs| > 0 && msgs[|msgs| - 1].role == Assistant
  }

  /**
   The updater run for every non-empty delta: a trailing assistant message gets the
   accumulated text as its content (every other field kept); any other list gets one
   new assistant message appended.
   */
  function UpsertAssistant(msgs: seq<Message>, text: string): (r: seq<Message>)
    ensures EndsWithAssistant(msgs) ==> |r| == |msgs| && r[|r| - 1] == msgs[|msgs| - 1].(content := text)
    ensures !EndsWithAssistant(msgs) ==> r == msgs + [Message(Assistant, text, false)]
    ensures |r| >= |msgs| && forall i :: 0 <= i < |msgs| - 1 ==> r[i] == msgs[i]
    ensures EndsWithAssistant(r) && r[|r| - 1].content == text
  {
    if EndsWithAssistant(msgs) then
      var n := |msgs| - 1;
      msgs[..n] + [msgs[n].(content := text)]
    else
      msgs + [Message(Assistant, text, false)]
  }

  /** A second tail update overrides the first: only the latest accumulated text survives. */
  lemma {:induction false} UpsertOverrides(msgs: seq<Message>, a: string, b: string)
    ensures UpsertAssistant(UpsertAssistant(msgs, a), b) == UpsertAssistant(msgs, b)
  {
    var once := UpsertAssistant(msgs, a);
    var twice := UpsertAssistant(once, b);
    var direct := UpsertAssistant(msgs, b);
    assert |twice| == |direct|;
    assert forall i :: 0 <= i < |direct| ==> twice[i] == direct[i];
  }

  /**
   The updater run after a pricing query: the last message gets `showContactForm`
   set only when it is an assistant message; otherwise the list is returned as is.
   */
  function MarkContactForm(msgs: seq<Message>): (r: seq<Message>)
    ensures |r| == |msgs|
    ensures EndsWithAssistant(msgs) ==> r[|r| - 1] == msgs[|msgs| - 1].(showContactForm := true)
    ensures !EndsWithAssistant(msgs) ==> r == msgs
    ensures forall i :: 0 <= i < |msgs| - 1 ==> r[i] == msgs[i]
  {
    if EndsWithAssistant(msgs) then
      var n := |msgs| - 1;
      msgs[..n] + [msgs[n].(showContactForm := true)]
    else
      msgs
  }

  const PriceKeywords: seq<string> :=
    ["price", "pricing", "cost", "rate", "fee", "charge", "quote", "estimate", "how much"]

  /** Some keyword of `ks` occurs in `s`. */
  function ContainsAny(s: string, ks: seq<string>): (r: bool)
    ensures r <==> exists i :: 0 <= i < |ks| && Contains(s, ks[i])
  {
    if ks == [] then false
    else
      var r := ContainsAny(s, ks[1..]);
      assert r ==> exists i :: 0 <= i < |ks| && Contains(s, ks[i]) by {
        if r {
          var i :| 0 <= i < |ks| - 1 && Contains(s, ks[1..][i]);
          assert ks[1..][i] == ks[i + 1];
        }
      }
      assert (exists i :: 0 <= i < |ks| && Contains(s, ks[i])) ==> Contains(s, ks[0]) || r by {
        if exists i :: 0 <= i < |ks| && Contains(s, ks[i]) {
          var i :| 0 <= i < |ks| && Contains(s, ks[i]);
          if i > 0 {
            assert ks[1..][i - 1] == ks[i];
          }
        }
      }
      Contains(s, ks[0]) || r
  }

  /** The pricing-intent heuristic: the lowered text contains one of the keywords as a substring. */
  function IsPriceQuery(text: string): (r: bool)
    ensures r <==> exists i :: 0 <= i < |PriceKeywords| && Contains(Lower(text), PriceKeywords[i])
  {
    ContainsAny(Lower(text), PriceKeywords)
  }

  /** After a completed turn, the contact form is marked exactly when the user's text was a pricing query. */
  function AfterTurn(msgs: seq<Message>, userText: string): (r: seq<Message>)
    ensures |r| == |msgs| && forall i :: 0 <= i < |msgs| - 1 ==> r[i] == msgs[i]
    ensures IsPriceQuery(userText) && EndsWithAssistant(msgs) ==>
      r[|r| - 1] == msgs[|msgs| - 1].(showContactForm := true)
    ensures !(IsPriceQuery(userText) && EndsWithAssistant(msgs)) ==> r == msgs
  {
    if IsPriceQuery(userText) then MarkContactForm(msgs) else msgs
  }

  /** "accurate" is a pricing query, through the keyword "rate". */
  lemma AccurateMatchesRate()
    ensures IsPriceQuery("accurate")
  {
    assert Lower("accurate") == "accurate";
    assert OccursAt("accurate", "rate", 4);
    assert Contains(Lower("accurate"), PriceKeywords[3]);
  }

  lemma CostQuestionIsPricing()
    ensures IsPriceQuery("What's your cost?")
  {
    var lowered := Lower("What's your cost?");
    assert LowerChar('W') == 'w';
    assert forall i :: 1 <= i < |lowered| ==> lowered[i] == "What's your cost?"[i];
    assert lowered == "what's your cost?";
    assert OccursAt("what's your cost?", "cost", 12);
    assert Contains(Lower("What's your cost?"), PriceKeywords[2]);
  }

  /** A question with none of the keywords in it is not a pricing query. */
  lemma PowerBiIsNotPricing()
    ensures !IsPriceQuery("Tell me about Power BI")
  {
    assert Lower("Tell me about Power BI") == "tell me about power bi";
    PowerBiHasNoKeyword();
  }

  /** The lowered question holds none of the keywords. */
  lemma PowerBiHasNoKeyword()
    ensures forall n :: 0 <= n < |PriceKeywords| ==> !Contains("tell me about power bi", PriceKeywords[n])
  {
    forall n | 0 <= n < |PriceKeywords|
      ensures !Contains("tell me about power bi", PriceKeywords[n])
    {
      NoPairNoMatch("tell me about power bi", PriceKeywords[n]);
    }
  }

  /** A keyword whose first two letters never occur side by side in `s` does not occur in `s`. */
  lemma {:induction false} NoPairNoMatch(s: string, k: string)
    requires |k| >= 2
    requires forall i :: 0 <= i < |s| - 1 ==> s[i] != k[0] || s[i + 1] != k[1]
    ensures !Contains(s, k)
  {
    forall i | 0 <= i <= |s| - |k|
      ensures !OccursAt(s, k, i)
    {
      assert s[i..i + |k|][0] == s[i] && s[i..i + |k|][1] == s[i + 1];
    }
  }
}

=== FILE: wire.dfy ===
/**
 The normalised wire format the chat function streams to the widget: each event
 is one `data: ` line followed by a blank line, carrying either the JSON object
 `{"choices":[{"delta":{"content":T}}]}` or the `[DONE]` sentinel. The JSON text
 is produced as `JSON.stringify` does (ECMA-262 QuoteJSONString); a reference
 decoder for exactly this object shape shows the encoding loses nothing.
 */
module Wire {
  import opened Wrappers
  import opened Text

  datatype OutEvent = Content(text: string) | Done

  const DataPrefix := "data: "
  const DonePayload := "[DONE]"
  const HexDigits := "0123456789abcdef"

  /** One character of a JSON string literal: short escapes, `\u00xx` for other controls, else itself. */
  function EscapeChar(c: char): string {
    if c == '"' then "\\\""
    else if c == '\\' then "\\\\"
    else if c == '\U{0008}' then "\\b"
    else if c == '\t' then "\\t"
    else if c == '\n' then "\\n"
    else if c == '\U{000C}' then "\\f"
    else if c == '\r' then "\\r"
    else if c < ' ' then "\\u00" + [HexDigits[c as int / 16], HexDigits[c as int % 16]]
    else [c]
  }

  /** The body of a JSON string literal: never shorter than the text, and free of raw control characters. */
  function Escape(t: string): (r: string)
    ensures |r| >= |t|
    ensures forall i :: 0 <= i < |r| ==> r[i] >= ' '
  {
    if t == [] then []
    else
      EscapeCharPrintable(t[0]);
      EscapeChar(t[0]) + Escape(t[1..])
  }

  lemma {:induction false} EscapeCharPrintable(c: char)
    ensures |EscapeChar(c)| >= 1
    ensures forall i :: 0 <= i < |EscapeChar(c)| ==> EscapeChar(c)[i] >= ' '
  {
    if c < ' ' && c != '\U{0008}' && c != '\t' && c != '\n' && c != '\U{000C}' && c != '\r' {
      assert EscapeChar(c) == "\\u00" + [HexDigits[c as int / 16], HexDigits[c as int % 16]];
    }
  }

  /** `JSON.stringify` of a string value. */
  function Quote(t: string): string {
    "\"" + Escape(t) + "\""
  }

  const ContentOpen := "{\"choices\":[{\"delta\":{\"content\":"
  const ContentClose := "}}]}"

  /** `JSON.stringify({ choices: [{ delta: { content: t } }] })`. */
  function ContentJson(t: string): (r: string)
    ensures NoNewline(r)
  {
    ContentPartsNoNewline(t);
    ContentOpen + Quote(t) + ContentClose
  }

  lemma {:induction false} ContentPartsNoNewline(t: string)
    ensures '\n' !in ContentOpen && '\n' !in Quote(t) && '\n' !in ContentClose
  {
    ContentLiteralsNoNewline();
    EscapeNoNewline(t);
  }

  lemma ContentLiteralsNoNewline()
    ensures '\n' !in ContentOpen && '\n' !in ContentClose
  {
  }

  /** The `data: ` line of an event, without its terminator. */
  function EventLine(e: OutEvent): string {
    match e
    case Content(t) => DataPrefix + ContentJson(t)
    case Done => DataPrefix + DonePayload
  }

  /** The bytes enqueued for one event: one of exactly two shapes, both ending in a blank line. */
  function Render(e: OutEvent): (r: string)
    ensures EndsWith(r, "\n\n") && StartsWith(r, DataPrefix)
    ensures e.Done? ==> r == "data: [DONE]\n\n"
    ensures e.Content? ==> r == "data: " + ContentJson(e.text) + "\n\n"
  {
    EventLine(e) + "\n\n"
  }

  /** Everything the function streams for a sequence of events, in order. */
  function WireText(es: seq<OutEvent>): string {
    if es == [] then "" else Render(es[0]) + WireText(es[1..])
  }

  /** The lines a reader sees in the wire text: each event line followed by an empty line. */
  function WireLines(es: seq<OutEvent>): seq<string> {
    if es == [] then [] else [EventLine(es[0]), ""] + WireLines(es[1..])
  }

  lemma {:induction false} EscapeCharNoNewline(c: char)
    ensures NoNewline(EscapeChar(c))
  {
    if c < ' ' && c != '\U{0008}' && c != '\t' && c != '\n' && c != '\U{000C}' && c != '\r' {
      assert EscapeChar(c) == "\\u00" + [HexDigits[c as int / 16], HexDigits[c as int % 16]];
    }
  }

  lemma {:induction false} EscapeNoNewline(t: string)
    ensures NoNewline(Escape(t))
  {
    if t != [] {
      EscapeNoNewline(t[1..]);
      EscapeCharNoNewline(t[0]);
    }
  }

  lemma {:induction false} EventLineNoNewline(e: OutEvent)
    ensures NoNewline(EventLine(e))
  {
    if e.Content? {
      EscapeNoNewline(e.text);
      assert EventLine(e) == DataPrefix + (ContentOpen + ("\"" + Escape(e.text) + "\"") + ContentClose);
    }
  }

  /** A content event's JSON text starts with `{` and ends with `}`, so trimming leaves it whole. */
  lemma {:induction false} ContentJsonTrimmed(t: string)
    ensures Trim(ContentJson(t)) == ContentJson(t)
  {
    var j := ContentJson(t);
    assert j[0] == '{' && j[|j| - 1] == '}';
    TrimMeaning(j);
  }

  lemma {:induction false} HeadJoined(l: string)
    ensures Joined([l, ""]) == l + "\n\n"
  {
    JoinedCons(l, [""]);
    JoinedSingle("");
    assert [l, ""] == [l] + [""];
    AppendAssoc(l, "\n", "\n");
  }

  lemma {:induction false} WireTextJoined(es: seq<OutEvent>)
    ensures WireText(es) == Joined(WireLines(es))
    ensures AllNoNewline(WireLines(es))
  {
    if es != [] {
      WireTextJoined(es[1..]);
      EventLineNoNewline(es[0]);
      var head := [EventLine(es[0]), ""];
      HeadJoined(EventLine(es[0]));
      JoinedAppend(head, WireLines(es[1..]));
      AllNoNewlineAppend(head, WireLines(es[1..]));
    }
  }

  /** The wire text frames into exactly the event lines and blank separators, with nothing left over. */
  lemma {:induction false} WireFraming(es: seq<OutEvent>)
    ensures Lines(WireText(es)) == Framing(WireLines(es), "")
  {
    WireTextJoined(es);
    LinesOfJoined(WireLines(es), "");
    assert Joined(WireLines(es)) + "" == Joined(WireLines(es));
  }

  lemma {:induction false} WireTextAppend(a: seq<OutEvent>, b: seq<OutEvent>)
    ensures WireText(a + b) == WireText(a) + WireText(b)
    ensures WireLines(a + b) == WireLines(a) + WireLines(b)
  {
    if a == [] {
      assert a + b == b;
    } else {
      assert (a + b)[0] == a[0] && (a + b)[1..] == a[1..] + b;
      WireTextAppend(a[1..], b);
      AppendAssoc(Render(a[0]), WireText(a[1..]), WireText(b));
      AppendAssoc([EventLine(a[0]), ""], WireLines(a[1..]), WireLines(b));
    }
  }

  // The reference decoder.

  function HexValue(c: char): Option<nat> {
    if '0' <= c <= '9' then Some(c as int - '0' as int)
    else if 'a' <= c <= 'f' then Some(c as int - 'a' as int + 10)
    else if 'A' <= c <= 'F' then Some(c as int - 'A' as int + 10)
    else None
  }

  function Hex4(h: string): Option<nat>
    requires |h| == 4
  {
    match (HexValue(h[0]), HexValue(h[1]), HexValue(h[2]), HexValue(h[3]))
    case (Some(a), Some(b), Some(c), Some(d)) => Some(((a * 16 + b) * 16 + c) * 16 + d)
    case _ => None
  }

  /** The character a two-character escape `\e` stands for. */
  function ShortEscape(e: char): Option<char> {
    if e == '"' then Some('"')
    else if e == '\\' then Some('\\')
    else if e == '/' then Some('/')
    else if e == 'b' then Some('\U{0008}')
    else if e == 'f' then Some('\U{000C}')
    else if e == 'n' then Some('\n')
    else if e == 'r' then Some('\r')
    else if e == 't' then Some('\t')
    else None
  }

  function Prepend(c: char, o: Option<string>): Option<string> {
    match o
    case None => None
    case Some(s) => Some([c] + s)
  }

  /** The body of a JSON string literal back to its characters; None on a raw quote, raw control or bad escape. */
  function Unescape(s: string): Option<string>
    decreases |s|
  {
    if s == [] then Some([])
    else if s[0] == '\\' then
      if |s| < 2 then None
      else if s[1] == 'u' then
        if |s| < 6 then None
        else match Hex4(s[2..6])
          case None => None
          case Some(n) =>
            if n < 0xD800 || 0xE000 <= n < 0x11_0000 then Prepend(n as char, Unescape(s[6..])) else None
      else match ShortEscape(s[1])
        case None => None
        case Some(c) => Prepend(c, Unescape(s[2..]))
    else if s[0] == '"' || s[0] < ' ' then None
    else Prepend(s[0], Unescape(s[1..]))
  }

  /** Decodes a payload of the exact shape ContentJson produces. */
  function DecodeContentJson(js: string): Option<string> {
    var open := ContentOpen + "\"";
    var close := "\"" + ContentClose;
    if |open| + |close| <= |js| && StartsWith(js, open) && EndsWith(js, close) then
      Unescape(js[|open|..|js| - |close|])
    else None
  }

  lemma {:induction false} HexDigitsDecode(d: nat)
    requires d < 16
    ensures HexValue(HexDigits[d]) == Some(d)
  {
  }

  lemma {:induction false} UnescapeShort(e: char, rest: string)
    requires ShortEscape(e).Some?
    ensures Unescape(['\\', e] + rest) == Prepend(ShortEscape(e).value, Unescape(rest))
  {
    var s := ['\\', e] + rest;
    assert s[0] == '\\' && s[1] == e && s[2..] == rest;
  }

  lemma {:induction false} UnescapeControl(c: char, rest: string)
    requires c < ' '
    ensures Unescape(("\\u00" + [HexDigits[c as int / 16], HexDigits[c as int % 16]]) + rest) == Prepend(c, Unescape(rest))
  {
    var n := c as int;
    var s := ("\\u00" + [HexDigits[n / 16], HexDigits[n % 16]]) + rest;
    HexDigitsDecode(n / 16);
    HexDigitsDecode(n % 16);
    assert s[0] == '\\' && s[1] == 'u';
    assert s[2..6] == ['0', '0', HexDigits[n / 16], HexDigits[n % 16]];
    assert Hex4(s[2..6]) == Some(n);
    assert s[6..] == rest;
  }

  lemma {:induction false} UnescapePlain(c: char, rest: string)
    requires c != '\\' && c != '"' && ' ' <= c
    ensures Unescape([c] + rest) == Prepend(c, Unescape(rest))
  {
    assert ([c] + rest)[1..] == rest;
  }

  lemma {:induction false} UnescapeEscapeChar(c: char, rest: string)
    ensures Unescape(EscapeChar(c) + rest) == Prepend(c, Unescape(rest))
  {
    if c == '"' {
      UnescapeShort('"', rest);
    } else if c == '\\' {
      UnescapeShort('\\', rest);
    } else if c == '\U{0008}' {
      UnescapeShort('b', rest);
    } else if c == '\t' {
      UnescapeShort('t', rest);
    } else if c == '\n' {
      UnescapeShort('n', rest);
    } else if c == '\U{000C}' {
      UnescapeShort('f', rest);
    } else if c == '\r' {
      UnescapeShort('r', rest);
    } else if c < ' ' {
      UnescapeControl(c, rest);
    } else {
      UnescapePlain(c, rest);
    }
  }

  /** Decoding an escaped string gives back the original characters. */
  lemma {:induction false} UnescapeEscape(t: string)
    ensures Unescape(Escape(t)) == Some(t)
  {
    if t != [] {
      UnescapeEscapeChar(t[0], Escape(t[1..]));
      UnescapeEscape(t[1..]);
      assert [t[0]] + t[1..] == t;
    }
  }

  /** The three parts of `a + b + c` are recovered by slicing off the outer two. */
  lemma {:induction false} ThreePartSlices(a: string, b: string, c: string)
    ensures var s := a + b + c; |a| + |c| <= |s| && s[..|a|] == a && s[|s| - |c|..] == c && s[|a|..|s| - |c|] == b
  {
  }

  /** The round trip the consumer relies on: the content object decodes to exactly the text it was built from. */
  lemma {:induction false} DecodeContentJsonRoundTrip(t: string)
    ensures DecodeContentJson(ContentJson(t)) == Some(t)
  {
    var open := ContentOpen + "\"";
    var close := "\"" + ContentClose;
    AppendAssoc(ContentOpen, "\"" + Escape(t), "\"");
    AppendAssoc(ContentOpen, "\"", Escape(t));
    AppendAssoc(open + Escape(t), "\"", ContentClose);
    assert ContentJson(t) == open + Escape(t) + close;
    ThreePartSlices(open, Escape(t), close);
    UnescapeEscape(t);
  }
}

=== FILE: wrappers.dfy ===
module Wrappers {
  datatype Option<+T> = None | Some(value: T)
}
